=== FILE: README.md ===
# nServiceBroker transport model

A Dafny model of the SQL Server Service Broker transport for WCF
(`SsbTransportChannel`). The transport carries WCF messages as Service Broker
messages on conversations:

- a client-side **output session channel** encodes each message and hands the
  bytes to a **conversation sender**, which begins (or resumes) a conversation
  and issues `SEND ON CONVERSATION`;
- a service-side **channel listener** acquires a conversation group, either a
  configured one (targeted mode, `sp_getapplock`) or the next one with work on
  the service's queue (open mode, `WAITFOR (GET CONVERSATION GROUP)` in a
  retry loop that skips groups locked by other listeners);
- a **conversation-group receiver** owns the locked group, its connection and
  its transaction, and hands out the rows of `RECEIVE` batches one by one; an
  **input session channel** turns them into WCF messages;
- the **binding**, its **binding element** and the **channel factory** carry
  the settings (connection string, contract, conversation group, flags) and
  check them.

The broker is not modelled: every command the transport issues is appended to
the connection's command log (`Broker.Connection.log`), and what the broker
answers is a parameter of the operation (a fetch that is cancelled, fails or
yields rows; a command that succeeds or fails with an error number; the
conversation catalog as a map). Whether the operation's deadline has passed
is the boolean `timeRemaining`. Message encoders, the XML error-payload
reader, `SqlConnectionStringBuilder` and `new Uri(base, relative)` are
function parameters.

One Dafny module per C# file, plus small base modules: `Wrappers` (Option),
`Errors` (the exceptions as values), `Broker` (connection, transaction,
command log, broker outcomes), `Communication` (the WCF CommunicationObject
states and which of OnOpen/OnClose/OnAbort Open, Close and Abort run),
`Uris` (the parts of System.Uri the transport reads) and `Messages`.
`SsbConversation.SsbConversationContext` has getter-only properties over
fields set once in its constructor, so it is a datatype.
`ConversationInfo.ConversationInfo` and `SsbHelper.ServiceInfo` have plain
mutable fields in the C# code (ConversationInfo's are `internal` fields;
ServiceInfo's are assigned one by one after `new ServiceInfo()`), but no
code changes them once they are filled, so they are datatypes too, built
with every field at once. `SsbConstants` holds the constants of
SsbConstants.cs.

Notable behaviours of the code:

- open-mode acquisition does not wait for the first message; only targeted
  mode calls `WaitForFirstMessage`;
- in targeted mode a lock code outside {0, 1} raises an error inside the
  T-SQL batch, so a raw SqlException (number 50000) propagates, not a
  ProtocolException;
- a service that is not found, and an unknown conversation handle, surface as
  CommunicationException.

## Model

| member | source | states |
|---|---|---|
| Errors.BackendFailure | SsbTransportChannel/SsbConversationSender.cs:171-181 | a backend failure is a TimeoutException exactly when the deadline has passed, otherwise a CommunicationException carrying the inner message |
| Communication.RequireOpen | SsbTransportChannel/SsbOutputSessionChannel.cs:74 | ThrowIfDisposedOrNotOpen passes exactly in the Opened state |
| Instrumentation.Add32 | SsbTransportChannel/SsbInstrumentation.cs:16-26 | Interlocked.Add: the result is an Int32, congruent to the true sum modulo 2^32, and equal to it when the sum fits |
| Instrumentation.IncrementWraps | SsbTransportChannel/SsbInstrumentation.cs:16-26 | incrementing Int32.MaxValue gives Int32.MinValue |
| Instrumentation.Add32Accumulates | SsbTransportChannel/SsbInstrumentation.cs:16-26 | two wrapped additions equal one wrapped addition of the total, so a counter holds its true total modulo 2^32 |
| Instrumentation.Statistics.constructor | SsbTransportChannel/SsbInstrumentation.cs:11-14 | all four counters start at zero |
| Instrumentation.Statistics.MessageSent | SsbTransportChannel/SsbInstrumentation.cs:16-20 | adds the size to bytes sent and one to messages sent, with wrap-around; the receive counters do not move |
| Instrumentation.Statistics.MessageReceived | SsbTransportChannel/SsbInstrumentation.cs:22-26 | adds the size to bytes received and one to messages received, with wrap-around; the send counters do not move |
| ConversationInfo.GetTransmissionStateDescription | SsbTransportChannel/ConversationInfo.cs:44-47 | succeeds exactly for a code in the table, with its description; any other code fails as a missing dictionary key |
| ConversationInfo.ConversationInfo.StateDescription | SsbTransportChannel/ConversationInfo.cs:36-42 | succeeds exactly when the record's state is in the table, with that state's description; a state outside the table fails as a missing dictionary key; it agrees with GetTransmissionStateDescription of the state |
| ConversationInfo.StateTableIsExact | SsbTransportChannel/ConversationInfo.cs:50-59 | the table holds exactly SO, SI, CO, DI, DO, ER and CD, with pairwise distinct descriptions |
| SsbUri.Split | SsbTransportChannel/SsbUri.cs:34-39 | splitting on '=' and ':' yields one more segment than there are separators, none of them containing a separator |
| SsbUri.Parse | SsbTransportChannel/SsbUri.cs:24-44 | accepts exactly a scheme equal to net.ssb ignoring case and a local path with three separators (four segments); the result keeps the URI unchanged; a refusal is an ArgumentException |
| SsbUri.ParseAddressForm | SsbTransportChannel/SsbUri.cs:34-43 | a path k0=client:k2=service of separator-free words parses back to exactly that client and service |
| SsbUri.KeywordsNotChecked | SsbTransportChannel/SsbUri.cs:42-43 | the words in segments 0 and 2 are not checked: "from=C:to=S" parses to client C and service S |
| SsbUri.DefaultParses | SsbTransportChannel/SsbUri.cs:65 | the default address parses to client "*" and service "*" |
| SsbUri.SchemeIgnoresCase | SsbTransportChannel/SsbUri.cs:29-33 | the scheme comparison ignores letter case, so an upper-case NET.SSB scheme is accepted (System.Uri already reports schemes in lower case, so this matters only for a URI record built directly) |
| SsbUri.WrongSegmentCountRejected | SsbTransportChannel/SsbUri.cs:34-39 | a path without exactly three separators is rejected whatever the scheme |
| SsbHelper.IndexOfAny | SsbTransportChannel/SsbHelper.cs:120 | -1 exactly when no character of the string is in the set; otherwise the first position holding one |
| SsbHelper.ValidateIdentifier | SsbTransportChannel/SsbHelper.cs:108-125 | returns its input unchanged exactly when it has none of [ ] ' " CR LF TAB, and an ArgumentException otherwise |
| SsbHelper.DelimitedNameRejected | SsbTransportChannel/SsbHelper.cs:108-125 | "[My Contract]" is refused while "My Contract" is accepted |
| SsbHelper.IsValidSsbAddress | SsbTransportChannel/SsbHelper.cs:26-40 | an address has the net.ssb scheme and no explicit port; with those, any path longer than the root is an address whatever the query, and the bare root with no query is not |
| SsbHelper.AddressExamples | SsbTransportChannel/SsbHelper.cs:26-40 | a net.ssb host with a service path is an address; an explicit port, a bare "/" path or another scheme is not |
| SsbHelper.TimerSeconds | SsbTransportChannel/SsbHelper.cs:136-151 | the timer delay lies in 1..2147483646, in-range values pass unchanged, larger ones become the maximum and smaller ones 1 |
| SsbHelper.TimerSecondsIdempotentAndMonotone | SsbTransportChannel/SsbHelper.cs:136-151 | clamping twice equals clamping once, and the clamp keeps the order of requests |
| SsbHelper.SetConversationTimer | SsbTransportChannel/SsbHelper.cs:134-159 | on an open connection issues BEGIN CONVERSATION TIMER with the clamped delay and succeeds exactly when it does, a SQL failure propagating as a SqlException; a connection that is not open (closed or disposed) refuses the command with an InvalidOperationException and nothing is issued |
| SsbHelper.GetServiceInfo | SsbTransportChannel/SsbHelper.cs:55-106 | the first matching row; no row is a "Service not found" CommunicationException; a SQL failure is a timeout exactly when the deadline has passed |
| SsbHelper.NameOutput | SsbTransportChannel/SsbHelper.cs:205-215 | a name read back through a varchar(30) output parameter is its prefix of at most 30 characters, unchanged when it fits |
| SsbHelper.IsSendableState | SsbTransportChannel/SsbHelper.cs:236-241 | only CO and SO allow sending, and both are in the state description table, so their description never fails |
| SsbHelper.GetConversationInfo | SsbTransportChannel/SsbHelper.cs:169-255 | succeeds exactly for a known handle in state CO or SO, returning that handle, its group and its (truncated) names; an unknown handle or failed query is a CommunicationException; any other state is an InvalidOperationException when the state has a description |
| SsbHelper.ClosedConversationRefused | SsbTransportChannel/SsbHelper.cs:236-241 | a closed conversation is refused with "Cannot open conversation in state Closed" |
| Receiver.Classify | SsbTransportChannel/SsbConversationGroupReceiver.cs:140-182 | a row becomes a delivery unless it is a broker error message or short; end-dialog and timer rows have no body and length 0; other rows have a body of exactly the stored length; a short stream is a general exception; an error row is a protocol error with the payload's code and description; every context names the receiver's group |
| Receiver.EndDialogHasNoBody | SsbTransportChannel/SsbConversationGroupReceiver.cs:143-169 | an end-dialog row is delivered as a context with its type and sequence number and no body, never as an error |
| Receiver.BatchDelivery | SsbTransportChannel/SsbConversationGroupReceiver.cs:105-131 | a cancelled wait or an empty batch yields no message; a failed fetch is a CommunicationException; otherwise the first row of the batch is classified |
| Receiver.SsbConversationGroupReceiver.constructor | SsbTransportChannel/SsbConversationGroupReceiver.cs:35-44 | a new receiver holds the given connection, transaction and group, with no reader and nothing queued |
| Receiver.SsbConversationGroupReceiver.Receive | SsbTransportChannel/SsbConversationGroupReceiver.cs:80-206 | a queued message is handed out once with its length and context and the slot is emptied; otherwise the next row of the open batch is read; a new RECEIVE is issued only when there is no reader or it is used up; an empty or cancelled batch resets the reader and yields nothing; every row handed out is counted |
| Receiver.SsbConversationGroupReceiver.WaitForFirstMessage | SsbTransportChannel/SsbConversationGroupReceiver.cs:52-75 | fails when a message is already queued; true exactly when a message with a body was received and queued (with the receiver's group); false leaves the slot empty |
| Receiver.SsbConversationGroupReceiver.EndConversation | SsbTransportChannel/SsbConversationGroupReceiver.cs:290-317 | issues END CONVERSATION on an open receiver; a failure is a timeout exactly when the deadline has passed |
| Receiver.SsbConversationGroupReceiver.EndConversationWithError | SsbTransportChannel/SsbConversationGroupReceiver.cs:328-348 | issues END CONVERSATION WITH ERROR with the code and description; a failure is a CommunicationException |
| Receiver.SsbConversationGroupReceiver.SetConversationTimer | SsbTransportChannel/SsbConversationGroupReceiver.cs:285-288 | issues the timer command with the clamped delay on the receiver's connection without a state check, so after Close the disposed connection refuses it with an InvalidOperationException and nothing is issued |
| Receiver.SsbConversationGroupReceiver.TakeTransaction | SsbTransportChannel/SsbConversationGroupReceiver.cs:366-371 | hands out the transaction and leaves none, so a later close or abort neither commits nor rolls it back |
| Receiver.SsbConversationGroupReceiver.OnClose | SsbTransportChannel/SsbConversationGroupReceiver.cs:415-436 | closes the reader, commits the transaction only while it is active, disposes the connection |
| Receiver.SsbConversationGroupReceiver.OnAbort | SsbTransportChannel/SsbConversationGroupReceiver.cs:395-413 | closes the reader, rolls back an active transaction, disposes the connection |
| Receiver.SsbConversationGroupReceiver.Open | SsbTransportChannel/SsbConversationGroupReceiver.cs:437-440 | OnOpen does nothing: Open only moves a Created receiver to Opened |
| Receiver.SsbConversationGroupReceiver.Close | SsbTransportChannel/SsbConversationGroupReceiver.cs:395-436 | from Opened commits through OnClose, from an unfinished state rolls back through OnAbort, once closing does nothing; afterwards the connection is disposed |
| Receiver.SsbConversationGroupReceiver.Abort | SsbTransportChannel/SsbConversationGroupReceiver.cs:395-413 | unless closed, rolls back an active transaction and disposes the connection |
| InputChannel.Handle | SsbTransportChannel/SsbInputSessionChannel.cs:54-77 | an end-dialog context ends that conversation and yields nothing; no body yields nothing; a body is decoded, carries its context and is addressed to the listen address |
| InputChannel.Clamp | SsbTransportChannel/SsbInputSessionChannel.cs:69 | the segment handed to the encoder lies within the buffer and is the message length when that fits |
| InputChannel.TryReceiveResult | SsbTransportChannel/SsbInputSessionChannel.cs:87-104 | false exactly on a TimeoutException, true whether or not a message arrived, any other exception propagates |
| InputChannel.SsbInputSessionChannel.constructor | SsbTransportChannel/SsbInputSessionChannel.cs:23-31 | the channel keeps the receiver, the listen address and the reader |
| InputChannel.SsbInputSessionChannel.Receive | SsbTransportChannel/SsbInputSessionChannel.cs:36-79 | requires an open channel; polls the receiver with a zero timeout and a pooled buffer whatever the caller's timeout; the receiver's result is the queued message when one is held, the next row of the current batch classified when there is one, an invalid-operation failure on a closed reader, and otherwise a RECEIVE issued with timeout 0 and its batch's first row; the channel's result is Handle of that result, and the end-dialog path issues END CONVERSATION |
| InputChannel.SsbInputSessionChannel.TryReceive | SsbTransportChannel/SsbInputSessionChannel.cs:87-104 | Receive with a timeout reported as false; false only when ending a conversation failed after the deadline |
| InputChannel.SsbInputSessionChannel.OnOpen | SsbTransportChannel/SsbInputSessionChannel.cs:216-223 | opens the receiver only when it is not already open |
| InputChannel.SsbInputSessionChannel.OnClose | SsbTransportChannel/SsbInputSessionChannel.cs:212-215 | closes the receiver, which commits an active transaction and disposes its connection |
| InputChannel.SsbInputSessionChannel.OnAbort | SsbTransportChannel/SsbInputSessionChannel.cs:129-132 | aborts the receiver, which rolls back an active transaction and disposes its connection |
| InputChannel.SsbInputSessionChannel.Open | SsbTransportChannel/SsbInputSessionChannel.cs:216-223 | Created to Opened through OnOpen, leaving the receiver open |
| Sender.CheckSenderArguments | SsbTransportChannel/SsbConversationSender.cs:39-62 | rejects a null or empty connection string, then a null via, then a null factory; otherwise the via must parse as a net.ssb address |
| Sender.SendResult | SsbTransportChannel/SsbConversationSender.cs:139-181 | succeeds exactly for a non-null message type free of forbidden characters, an open connection and a successful SEND; a failure is a timeout exactly when the deadline has passed, otherwise a CommunicationException whose inner error is the conversation's error text for error 8429 and none in every other case |
| Sender.SendCommands | SsbTransportChannel/SsbConversationSender.cs:141-153 | one SEND ON CONVERSATION with the handle, type and body exactly when the message type is non-null and a valid identifier and the connection is open |
| Sender.DelimitedMessageTypeNeverSent | SsbTransportChannel/SsbConversationSender.cs:141 | a bracketed message type always fails and issues nothing, whatever the broker or the connection does |
| Sender.AbortAsWritten | SsbTransportChannel/SsbConversationSender.cs:223-230 | OnAbort as written fails with a null dereference exactly when the sender owns a connection it does not have |
| Sender.AbortBeforeOpenFails | SsbTransportChannel/SsbConversationSender.cs:223-230 | aborting a sender that was never opened dereferences null |
| Sender.SsbConversationSender.constructor | SsbTransportChannel/SsbConversationSender.cs:39-62 | a new sender owns its (not yet opened) connection, has no conversation, and takes client and target from the address |
| Sender.SsbConversationSender.Create | SsbTransportChannel/SsbConversationSender.cs:39-62 | succeeds exactly when the argument checks pass, with those checks' error otherwise |
| Sender.SsbConversationSender.ConversationGroupId | SsbTransportChannel/SsbConversationSender.cs:64-71 | requires an open sender; the active conversation's group, and a null dereference when there is none |
| Sender.SsbConversationSender.ConversationHandle | SsbTransportChannel/SsbConversationSender.cs:72-83 | requires an open sender; the active conversation's handle, and an InvalidOperationException when there is none |
| Sender.SsbConversationSender.CreateResponseHost | SsbTransportChannel/SsbConversationSender.cs:101-120 | on an open sender clears the end-on-close flag before reading the group |
| Sender.SsbConversationSender.BeginNewConversation | SsbTransportChannel/SsbConversationSender.cs:291-341 | on an open sender clears the end-on-close flag; over an open connection issues BEGIN DIALOG from client to target with the contract and encryption flag, related to the group only when it is not the empty Guid, and on success the new conversation becomes active; a connection that is not open fails with an InvalidOperationException (not reclassified), issuing nothing and keeping the conversation |
| Sender.SsbConversationSender.OpenConversation | SsbTransportChannel/SsbConversationSender.cs:274-278 | resumes the conversation with the handle when the catalog accepts it; otherwise the current one is kept |
| Sender.SsbConversationSender.Send | SsbTransportChannel/SsbConversationSender.cs:125-185 | with no conversation begins one and then sets end-on-close; a begin failure propagates, including the InvalidOperationException of a connection that is not open; then sends as SendResult says for a possibly null message type and counts a sent message with its length; a failed send changes no counter |
| Sender.SsbConversationSender.SendOnCurrent | SsbTransportChannel/SsbConversationSender.cs:139-181 | the SEND on the active conversation and its result, nothing issued for a null or invalid type or a connection that is not open; counters move only on success |
| Sender.SsbConversationSender.EndConversation | SsbTransportChannel/SsbConversationSender.cs:383-410 | issues END CONVERSATION on the active conversation over an open connection and clears it on success; no conversation is a null dereference; a missing or closed connection is an InvalidOperationException that escapes the SqlException handler with nothing issued and the conversation kept; a SQL failure keeps it and is reported by the deadline |
| Sender.SsbConversationSender.EndConversationWithError | SsbTransportChannel/SsbConversationSender.cs:352-382 | as EndConversation, with the error code and description sent to the far end, including the InvalidOperationException of a missing or closed connection |
| Sender.SsbConversationSender.SetConversationTimer | SsbTransportChannel/SsbConversationSender.cs:343-346 | the timer command with the clamped delay on the sender's connection; a missing connection or one that is not open is an InvalidOperationException with nothing issued |
| Sender.SsbConversationSender.SetConnection | SsbTransportChannel/SsbConversationSender.cs:243-254 | refused exactly while the sender is open; otherwise the connection is borrowed: not owned, and the connection string is dropped |
| Sender.SsbConversationSender.OnOpen | SsbTransportChannel/SsbConversationSender.cs:256-268 | creates and owns a new open connection only when none was set |
| Sender.SsbConversationSender.Open | SsbTransportChannel/SsbConversationSender.cs:256-268 | Created to Opened through OnOpen, or Faulted when OnOpen fails; an open sender has a connection |
| Sender.SsbConversationSender.OnClose | SsbTransportChannel/SsbConversationSender.cs:231-241 | ends the active conversation exactly when end-on-close is set and one exists, then disposes the connection only when owned; over a connection that is not open the END CONVERSATION fails with an InvalidOperationException, nothing is issued and the conversation is kept |
| Sender.SsbConversationSender.OnAbort | SsbTransportChannel/SsbConversationSender.cs:223-230 | disposes an owned connection that exists; a borrowed connection is untouched |
| Sender.SsbConversationSender.Close | SsbTransportChannel/SsbConversationSender.cs:223-241 | runs OnClose from Opened (aborting if it fails) and OnAbort from an unfinished state, ending Closed; from Opened it issues END CONVERSATION exactly when end-on-close is set, a conversation exists and the connection is open, and then succeeds exactly when that command does; with a connection that is not open it fails with an InvalidOperationException and issues nothing; otherwise, and on the abort path, it succeeds with no command; an owned connection ends disposed, a borrowed one never is |
| Sender.SsbConversationSender.Abort | SsbTransportChannel/SsbConversationSender.cs:223-230 | unless closed, ends Closed and disposes an owned connection, issuing no command; a borrowed one is untouched |
| Listener.WithTrailingSlash | SsbTransportChannel/SsbChannelListener.cs:349-357 | the path ends with "/" afterwards; a path already ending with one is left alone, otherwise exactly one "/" is appended; nothing else changes |
| Listener.BuildUri | SsbTransportChannel/SsbChannelListener.cs:323-361 | rejects a null base, then a null relative address, a non-absolute base and a scheme other than net.ssb ignoring case; an empty relative address returns the base unchanged, otherwise the relative address is combined with the base whose path ends with "/" |
| Listener.TrailingSlashIdempotent | SsbTransportChannel/SsbChannelListener.cs:351-356 | appending the slash twice is appending it once |
| Listener.CheckListenAddress | SsbTransportChannel/SsbChannelListener.cs:37-48 | ListenUriMode.Unique and a missing base address are refused; otherwise the built URI must parse as a net.ssb address |
| Listener.RetryOutcomeAfterContended | SsbTransportChannel/SsbChannelListener.cs:237-258 | the retry loop's group is the group of the first attempt after the contended ones, or none when the wait timed out |
| Listener.RetryOutcome | SsbTransportChannel/SsbChannelListener.cs:237-258 | a group the retry batch yields was found by one of its passes and locked there (sp_getapplock did not report it held elsewhere) |
| Listener.AlwaysContendedYieldsNothing | SsbTransportChannel/SsbChannelListener.cs:237-258 | when every group the passes find is locked elsewhere the batch yields no group |
| Listener.RunGroupRetryBatch | SsbTransportChannel/SsbChannelListener.cs:237-258 | the savepoint loop: each group whose non-blocking lock returns -1 is rolled back and skipped, the first other group is kept, a timed-out wait ends with none |
| Listener.SsbChannelListener.constructor | SsbTransportChannel/SsbChannelListener.cs:31-65 | the listener keeps the parsed address, connection string, binding group and reader |
| Listener.SsbChannelListener.Create | SsbTransportChannel/SsbChannelListener.cs:31-65 | succeeds exactly when the listen address checks pass; the encoder is the binding's or the default |
| Listener.SsbChannelListener.OnOpen | SsbTransportChannel/SsbChannelListener.cs:130-133 | looks up the service named by the listen address |
| Listener.SsbChannelListener.OnClose | SsbTransportChannel/SsbChannelListener.cs:126-129 | signals the cancel event |
| Listener.SsbChannelListener.OnAbort | SsbTransportChannel/SsbChannelListener.cs:121-124 | signals the cancel event |
| Listener.SsbChannelListener.AcceptTargeted | SsbTransportChannel/SsbChannelListener.cs:134-206 | locks the configured group first; a cancelled wait closes the connection and yields nothing; a lock code other than 0 or 1 is a SqlException; then opens a receiver and waits for the first message: none is nothing when the listener is no longer open and a timeout otherwise |
| Listener.SsbChannelListener.AcceptOpen | SsbTransportChannel/SsbChannelListener.cs:208-310 | opens a connection first, so a missing service description is a null dereference that leaves that connection open; otherwise runs the retry batch with the caller's timeout; a cancelled wait closes the connection and yields nothing; a SQL failure is a timeout when the deadline has passed and a ProtocolException otherwise; no group is a timeout; a group gives a new receiver |
| Listener.SsbChannelListener.OnAcceptChannel | SsbTransportChannel/SsbChannelListener.cs:76-107 | nothing when the listener is closing or closed; targeted mode exactly when the binding names a group; in targeted mode a cancelled lock is nothing, a failed lock its SQL error, a lock code other than 0 or 1 error 50000, a missing service lookup a null reference, and no first message nothing after a concurrent close and a timeout otherwise; in open mode a cancelled batch is nothing, a failed batch a timeout exactly when the deadline has passed (a protocol error before it), a batch ending without a group a timeout, and otherwise a channel over the group the retry loop yields; a channel is built over the receiver with the listen address and reader |
| BindingElement.CheckConnectionString | SsbTransportChannel/SsbBindingElement.cs:92-100 | an unparsable string is an ArgumentException; a string without Asynchronous Processing or without MultipleActiveResultSets is an InvalidOperationException naming the missing option |
| BindingElement.ConnectionStringCache.constructor | SsbTransportChannel/SsbBindingElement.cs:82-114 | the cache starts empty |
| BindingElement.ConnectionStringCache.Validate | SsbTransportChannel/SsbBindingElement.cs:82-114 | a null or cached string passes without change; otherwise the checks decide, and a string that passed is added while there are fewer than 100; the cache only holds distinct strings that passed, at most 100 |
| BindingElement.CheckBuildChannelListener | SsbTransportChannel/SsbBindingElement.cs:267-280 | a null context is an ArgumentNullException; a channel kind other than input session channel is an ArgumentException; a kind it accepts is never one a factory is built for |
| BindingElement.CheckBuildChannelFactory | SsbTransportChannel/SsbBindingElement.cs:259-266 | only a null context is refused |
| BindingElement.CanBuildChannelFactory | SsbTransportChannel/SsbBindingElement.cs:281-284 | true only for output session channels: never for a kind a listener is built for, and among the two session channel kinds exactly the one the listener refuses |
| BindingElement.CanBuildChannelListener | SsbTransportChannel/SsbBindingElement.cs:285-288 | true only for input session channels, so never for a channel kind other than the two session channels |
| BindingElement.SsbBindingElement.constructor | SsbTransportChannel/SsbBindingElement.cs:30-67 | every setting is stored as given |
| BindingElement.SsbBindingElement.Create | SsbTransportChannel/SsbBindingElement.cs:18-53 | succeeds exactly for an admissible connection string; contract DEFAULT, with end-on-close, encryption and the action message type all off by default |
| BindingElement.SsbBindingElement.SetSqlConnectionString | SsbTransportChannel/SsbBindingElement.cs:132-140 | stores the string exactly when it validates; a refused string leaves the old value |
| BindingElement.SsbBindingElement.SetContract | SsbTransportChannel/SsbBindingElement.cs:145-152 | a null contract is a null dereference; a contract with a forbidden character is refused and the old value kept |
| BindingElement.SsbBindingElement.IsConversationGroupSpecified | SsbTransportChannel/SsbBindingElement.cs:234-237 | whether a group was set; the copy made by Clone carries the group only when it is, and the listener's targeted mode is chosen by it |
| BindingElement.SsbBindingElement.ConversationGroupId | SsbTransportChannel/SsbBindingElement.cs:234-253 | fails exactly when no group is specified, and is the stored group otherwise |
| BindingElement.SsbBindingElement.SetConversationGroupId | SsbTransportChannel/SsbBindingElement.cs:234-253 | afterwards the group is specified and is the given one |
| BindingElement.SsbBindingElement.Clone | SsbTransportChannel/SsbBindingElement.cs:55-67 | a new element with the same connection string, flags and contract, and the group when one is specified |
| Binding.LastTextEncoder | SsbTransportChannel/SsbBinding.cs:128-142 | none exactly when there is no text-encoding element; otherwise the last one |
| Binding.LastSsbElement | SsbTransportChannel/SsbBinding.cs:128-142 | none exactly when there is no Service Broker element; otherwise the last one |
| Binding.ForeignElementRefused | SsbTransportChannel/SsbBinding.cs:138-141 | any other element makes TryCreate fail |
| Binding.EitherOrderAccepted | SsbTransportChannel/SsbBinding.cs:128-152 | a text encoder and a Service Broker element are accepted in either order |
| Binding.LaterElementWins | SsbTransportChannel/SsbBinding.cs:128-142 | a later element of a kind replaces an earlier one |
| Binding.SsbBinding.constructor | SsbTransportChannel/SsbBinding.cs:79-83 | the binding wraps exactly the given elements |
| Binding.SsbBinding.CreateDefault | SsbTransportChannel/SsbBinding.cs:74-78 | a new binding over a default transport element and the given text encoder |
| Binding.SsbBinding.CreateBindingElements | SsbTransportChannel/SsbBinding.cs:31-37 | exactly [encoder, transport], which TryCreate turns back into the same pair |
| Binding.SsbBinding.SetContract | SsbTransportChannel/SsbBinding.cs:49-53 | forwards to the transport element's contract setter |
| Binding.SsbBinding.SetSqlConnectionString | SsbTransportChannel/SsbBinding.cs:68-72 | forwards to the transport element's connection string setter |
| Binding.SsbBinding.SetFlags | SsbTransportChannel/SsbBinding.cs:43-66 | the three flag setters write the transport element's flags |
| Binding.BindingCapabilities | SsbTransportChannel/SsbBinding.cs:39-42 | scheme net.ssb; synchronous receive, ordered and queued delivery |
| Binding.TryCreate | SsbTransportChannel/SsbBinding.cs:117-153 | fails for more than four elements or any foreign one, or when a kind is missing; otherwise the binding wraps the last text encoder and the last transport element |
| OutputChannel.BufferPool.ReturnBuffer | SsbTransportChannel/SsbOutputSessionChannel.cs:91 | records the buffer as returned |
| OutputChannel.CheckChannelArguments | SsbTransportChannel/SsbOutputSessionChannel.cs:27-49 | rejects a null factory under the base constructor's parameter name channelManager, then a null via, encoder or buffer manager, in that order, then a null or empty connection string |
| OutputChannel.SenderChecksAfterChannelChecks | SsbTransportChannel/SsbOutputSessionChannel.cs:30-61 | once the channel's checks pass, the sender's can only refuse the address |
| OutputChannel.Addressed | SsbTransportChannel/SsbOutputSessionChannel.cs:81-84 | the To header becomes the remote address when there is one; nothing else changes |
| OutputChannel.CopySegment | SsbTransportChannel/SsbOutputSessionChannel.cs:87-88 | the new buffer has exactly the segment's length and bytes, from its offset |
| OutputChannel.SsbOutputSessionChannel.MessageTypeOf | SsbTransportChannel/SsbOutputSessionChannel.cs:76-80 | the Action header, possibly null, when the binding asks for it; otherwise DEFAULT, which is a sendable message type |
| OutputChannel.MessageTypeChoice | SsbTransportChannel/SsbOutputSessionChannel.cs:76-80 | the type is the Action header when the binding asks for it and DEFAULT otherwise; a null Action under that setting always fails the send as a CommunicationException or timeout; with DEFAULT on an open connection the SEND's own outcome decides the result |
| OutputChannel.SsbOutputSessionChannel.constructor | SsbTransportChannel/SsbOutputSessionChannel.cs:50-61 | every setting is stored as given |
| OutputChannel.SsbOutputSessionChannel.Create | SsbTransportChannel/SsbOutputSessionChannel.cs:27-62 | succeeds exactly when the channel's checks pass and the via parses; the new sender gets the channel's settings |
| OutputChannel.SsbOutputSessionChannel.Send | SsbTransportChannel/SsbOutputSessionChannel.cs:72-92 | requires an open channel (and an open sender, else nothing changes); on an existing conversation the sender sends the encoding of the addressed message under the chosen type, as SendResult says for the connection's state, and keeps the conversation and its end-on-close flag; on the first send over a connection that is not open it fails with an InvalidOperationException and issues nothing; otherwise it begins a dialog first (a failed BEGIN DIALOG or conversation lookup is the send's failure and nothing is sent; otherwise the new conversation is kept, ended on close, and the encoding is sent on it); the pooled buffer is returned only after the send succeeded; a successful send adds one message and its length to the sent counters (32-bit wrap-around) and a failed one leaves every counter unchanged |
| OutputChannel.SsbOutputSessionChannel.Open | SsbTransportChannel/SsbOutputSessionChannel.cs:123-128 | opens the sender with the channel; a failing sender faults the channel |
| OutputChannel.SsbOutputSessionChannel.Close | SsbTransportChannel/SsbOutputSessionChannel.cs:117-121 | closes (or aborts) the sender with the channel, and the sender ends Closed; from Opened the result and the END CONVERSATION command are the sender's Close, including its InvalidOperationException over a connection that is not open, and otherwise it succeeds with no command; a borrowed connection is never disposed |
| OutputChannel.SsbOutputSessionChannel.Abort | SsbTransportChannel/SsbOutputSessionChannel.cs:112-115 | unless the channel is closed, aborts the sender with it, so the sender ends Closed; no command is issued and a borrowed connection is untouched |
| OutputChannel.SsbOutputSessionChannel.GetProperty | SsbTransportChannel/SsbOutputSessionChannel.cs:171-178 | the conversation sender exactly when it is asked for |
| ChannelFactory.SelectEncoder | SsbTransportChannel/SsbChannelFactory.cs:35-48 | more than one encoding element is an InvalidOperationException; exactly one supplies the encoder; none gives the default |
| ChannelFactory.SsbChannelFactory.constructor | SsbTransportChannel/SsbChannelFactory.cs:23-49 | every setting is stored as given |
| ChannelFactory.SsbChannelFactory.Create | SsbTransportChannel/SsbChannelFactory.cs:23-49 | copies connection string, end-on-close, encryption, contract and action flag from the element, then chooses the encoder |
| ChannelFactory.SsbChannelFactory.OnCreateChannel | SsbTransportChannel/SsbChannelFactory.cs:67-72 | every channel receives the factory's stored settings and buffer manager |
| ChannelFactory.CreateResponseBinding | SsbTransportChannel/SsbChannelFactory.cs:51-57 | the response binding's transport element names the given conversation group |

## Left out

- Concurrency: the cancel event, `WaitHandle.WaitAny`, the reader lock and the atomicity of the counters. Each wait's result (completed or cancelled) is a parameter, and the counters are updated sequentially; the listener's cancel flag therefore has no effect of its own in the model.
- SQL execution and Service Broker semantics: `RECEIVE`, `WAITFOR (GET CONVERSATION GROUP)`, `sp_getapplock`, `BEGIN DIALOG`, `SEND`, `END CONVERSATION` and the catalog queries are commands in a log with their outcome as a parameter; lock exclusivity between processes is the database's.
- `CheckConversationForErrorMessage` and the `End*WithCleanup` helpers of SsbHelper.cs: the 8429 error text is a parameter of the send outcome.
- TimeoutHelper is not part of this model: the deadline is the boolean `timeRemaining`, and command timeouts in milliseconds are recorded but not computed.
- Sender.SsbConversationSender.Send: the conversation begun implicitly inside Send uses its own default timeout in the C# code; the model uses the caller's deadline flag for both steps.
- SsbHelper.TimerSeconds: the floating-point rounding of `TimeSpan.TotalSeconds` is not modelled; the clamp is over whole seconds.
- The XML error payload reader, the message encoders (`ReadMessage`/`WriteMessage`), `SqlConnectionStringBuilder` and `new Uri(base, relative)` are function parameters; `UriBuilder` is modelled as appending "/" to the path.
- System.Uri normalisation and `SsbUri.ToString`: a URI is a record of its parts, and `SsbUri.Parse` keeps it unchanged, which stands for the `Uri` property.
- Receiver.SsbConversationGroupReceiver.Receive: it, WaitForFirstMessage, EndConversation and EndConversationWithError issue their commands without checking the connection, because while the receiver is Opened its connection is the one the listener opened for it, and only the receiver's own Close or Abort, which leave Opened, dispose it; a connection closed by other code is not modelled.
- Opening a connection (`SqlConnection.Open`, `GetConnection`) cannot fail in the model, and the transaction's clone (`GetTransaction`) and `TransactionCompleted` tracing are not modelled.
- `GetCallback`, the `OperationContext` overloads of EndConversation, `SsbChannelListener.CreateResponseBinding`, `SsbInputSessionChannel.GetProperty` and all `OnBegin*`/`OnEnd*` asynchronous wrappers are WCF wiring and are not modelled.
- The CommunicationObject base class is reduced to its state and to which override Open, Close and Abort run; `ThrowIfDisposedOrNotOpen` is a NotOpenError. Close from Faulted runs OnAbort and returns Pass in the model, where WCF aborts and then throws CommunicationObjectFaultedException; Open from a state other than Created is always an InvalidOperationError in the model, where WCF throws ObjectDisposedException or the faulted exception for a closed or faulted object.
- BufferManager: only which buffers are returned is tracked; the Int64-to-Int32 length cast of the received body is not modelled.
- BindingElement.ConnectionStringCache.Validate: the cache is a `SortedList<string, string>` with the default comparer, whose key comparison is culture-sensitive, so `ContainsKey` also matches a string that differs from a cached one only by ignorable characters (such as a soft hyphen) and lets it through unparsed; the model compares keys exactly, so its promise that a string passes exactly when it is admissible is stronger than the code's.
- Policy and WSDL export, `ApplyConfiguration`, `MaxBufferPoolSize` and `MaxReceivedMessageSize`, and the copying of elements by `CustomBinding` are not modelled.
- BindingElement.CheckBuildChannelFactory: BuildChannelFactory checks only the context; the channel kind is checked by `CanBuildChannelFactory` alone, as the C# does.
- Listener.RetryOutcome: the batch is given as the finite list of passes it made. In SQL it ends only when a wait expires or a lock is taken; a list whose passes are all contended is read as ending with an expired wait, and so yields no group. Each pass's `WAITFOR ... TIMEOUT @timeout` waits up to the whole timeout again, and the command timeout is 0, so an accept can wait longer than its timeout; the model keeps no clock and does not state this bound.
- ChannelFactory.CreateResponseBinding: the C# method takes any `Binding`; the model narrows the parameter to SsbBinding, and the private static method has no caller in the code. `SsbBinding.CreateBindingElements` hands out the binding's own element objects, so setting the group mutates the original binding's element too; the model states this aliasing. `new CustomBinding(...)` is not modelled.

## Findings

| source | as written | input that shows it | evidently intended | confidence | as-written member | corrected member |
|---|---|---|---|---|---|---|
| SsbTransportChannel/SsbConversationSender.cs:223-230 | OnAbort disposes `con` whenever `ownsConnection` is true, and a new sender owns a connection it has not created yet | aborting a sender that was never opened (con is null, ownsConnection is true) dereferences null | dispose only an owned connection that exists | not executed | Sender.AbortAsWritten, Sender.AbortBeforeOpenFails | Sender.SsbConversationSender.OnAbort |

=== FILE: binding.dfy ===
/**
 * SsbBinding.cs: the standard binding, a text message encoder over the
 * Service Broker transport element, and TryCreate, which recognises that
 * shape in an arbitrary list of binding elements.
 */
module Binding {
  import opened Wrappers
  import opened Errors
  import opened SsbConstants
  import opened Messages
  import opened BindingElement

  /** A binding element as TryCreate classifies it. */
  datatype Element =
    | TextMessageEncoding(encoder: MessageEncoder)
    | OtherMessageEncoding(encoder: MessageEncoder)
    | Ssb(ssb: SsbBindingElement)
    | OtherElement(name: string)

  /** The most elements TryCreate accepts. */
  const MaxElements: nat := 4

  /** The encoder of the last text-encoding element, if there is one. */
  function LastTextEncoder(elements: seq<Element>): (r: Option<MessageEncoder>)
    ensures r.None? <==> forall i :: 0 <= i < |elements| ==> !elements[i].TextMessageEncoding?
    ensures r.Some? ==> exists i :: 0 <= i < |elements| && elements[i] == TextMessageEncoding(r.value) &&
                                   forall j :: i < j < |elements| ==> !elements[j].TextMessageEncoding?
    decreases |elements|
  {
    if |elements| == 0 then None
    else
      var last := elements[|elements| - 1];
      if last.TextMessageEncoding? then Some(last.encoder)
      else
        var earlier := LastTextEncoder(elements[..|elements| - 1]);
        assert forall i :: 0 <= i < |elements| - 1 ==> elements[..|elements| - 1][i] == elements[i];
        earlier
  }

  /** The last Service Broker element, if there is one. */
  function LastSsbElement(elements: seq<Element>): (r: Option<SsbBindingElement>)
    ensures r.None? <==> forall i :: 0 <= i < |elements| ==> !elements[i].Ssb?
    ensures r.Some? ==> exists i :: 0 <= i < |elements| && elements[i] == Ssb(r.value) &&
                                   forall j :: i < j < |elements| ==> !elements[j].Ssb?
    decreases |elements|
  {
    if |elements| == 0 then None
    else
      var last := elements[|elements| - 1];
      if last.Ssb? then Some(last.ssb)
      else
        var earlier := LastSsbElement(elements[..|elements| - 1]);
        assert forall i :: 0 <= i < |elements| - 1 ==> elements[..|elements| - 1][i] == elements[i];
        earlier
  }

  predicate Recognised(e: Element) { e.TextMessageEncoding? || e.Ssb? }

  /**
   * The elements of the binding TryCreate makes: at most four elements, all
   * of them text-encoding or Service Broker ones, at least one of each; the
   * last of each kind is used.
   */
  function TryCreateResult(elements: seq<Element>): Option<(MessageEncoder, SsbBindingElement)>
  {
    if |elements| > MaxElements || exists i :: 0 <= i < |elements| && !Recognised(elements[i]) then None
    else if LastTextEncoder(elements).None? || LastSsbElement(elements).None? then None
    else Some((LastTextEncoder(elements).value, LastSsbElement(elements).value))
  }

  /** Any foreign element (another encoder, security, reliability...) makes TryCreate fail. */
  lemma ForeignElementRefused(elements: seq<Element>, k: nat)
    requires k < |elements| && !Recognised(elements[k])
    ensures TryCreateResult(elements) == None
  {
  }

  /** The order of a text encoder and a Service Broker element does not matter. */
  lemma EitherOrderAccepted(enc: MessageEncoder, ssb: SsbBindingElement)
    ensures TryCreateResult([TextMessageEncoding(enc), Ssb(ssb)]) == Some((enc, ssb))
    ensures TryCreateResult([Ssb(ssb), TextMessageEncoding(enc)]) == Some((enc, ssb))
  {
    var a := [TextMessageEncoding(enc), Ssb(ssb)];
    var b := [Ssb(ssb), TextMessageEncoding(enc)];
    assert forall i :: 0 <= i < |a| ==> Recognised(a[i]);
    assert forall i :: 0 <= i < |b| ==> Recognised(b[i]);
    assert a[..1] == [TextMessageEncoding(enc)];
    assert b[..1] == [Ssb(ssb)];
    assert LastTextEncoder(a) == Some(enc) && LastSsbElement(a) == Some(ssb);
    assert LastTextEncoder(b) == Some(enc) && LastSsbElement(b) == Some(ssb);
  }

  /** A later element of a kind replaces an earlier one. */
  lemma LaterElementWins(enc1: MessageEncoder, enc2: MessageEncoder, ssb: SsbBindingElement)
    ensures TryCreateResult([TextMessageEncoding(enc1), Ssb(ssb), TextMessageEncoding(enc2)]) == Some((enc2, ssb))
  {
    var es := [TextMessageEncoding(enc1), Ssb(ssb), TextMessageEncoding(enc2)];
    assert forall i :: 0 <= i < |es| ==> Recognised(es[i]);
    assert es[..2] == [TextMessageEncoding(enc1), Ssb(ssb)];
    assert LastTextEncoder(es) == Some(enc2) && LastSsbElement(es) == Some(ssb);
  }

  /** The Binding the standard elements stand for: the encoder element first, then the transport. */
  class SsbBinding {
    var ssbbe: SsbBindingElement
    var encbe: MessageEncoder

    /** InitializeFrom: a binding over the given elements. */
    constructor (ssb: SsbBindingElement, encoder: MessageEncoder)
      ensures ssbbe == ssb && encbe == encoder
    {
      ssbbe := ssb;
      encbe := encoder;
    }

    /** The default constructor: a new default transport element and a new text encoder. */
    static method CreateDefault(shared: ConnectionStringCache, textEncoder: MessageEncoder) returns (b: SsbBinding)
      requires shared.Valid()
      modifies shared
      ensures shared.Valid() && shared.entries == old(shared.entries)
      ensures fresh(b) && fresh(b.ssbbe) && b.ssbbe.Valid() && b.encbe == textEncoder
      ensures b.ssbbe.sqlConnectionString == None && b.ssbbe.conversationGroupId == None
      ensures b.ssbbe.contract == DefaultContract
    {
      var e := SsbBindingElement.Create(None, None, shared);
      b := new SsbBinding(e.value, textEncoder);
    }

    /** CreateBindingElements: exactly the encoder and then the transport element, the binding's own objects. */
    function CreateBindingElements(): (r: seq<Element>)
      reads this
      ensures |r| == 2 && r[0] == TextMessageEncoding(encbe) && r[1] == Ssb(ssbbe)
      ensures TryCreateResult(r) == Some((encbe, ssbbe))
    {
      var r := [TextMessageEncoding(encbe), Ssb(ssbbe)];
      assert forall i :: 0 <= i < |r| ==> Recognised(r[i]);
      assert r[..1] == [TextMessageEncoding(encbe)];
      r
    }

    /** The Contract property writes through to the transport element's setter. */
    method SetContract(value: Option<string>) returns (r: Outcome)
      requires ssbbe.Valid()
      modifies ssbbe
      ensures ssbbe.Valid()
      ensures value.None? ==> r == Fail(NullReferenceError)
      ensures value.Some? ==> (r.Pass? <==> SsbHelper.ValidateIdentifier(value.value).Ok?)
      ensures r.Pass? ==> ssbbe.contract == value.value
      ensures r.Fail? ==> ssbbe.contract == old(ssbbe.contract)
    {
      r := ssbbe.SetContract(value);
    }

    /** The SqlConnectionString property writes through to the transport element's setter. */
    method SetSqlConnectionString(value: Option<string>) returns (r: Outcome)
      requires ssbbe.Valid()
      modifies ssbbe, ssbbe.cache
      ensures ssbbe.Valid()
      ensures r.Pass? <==> Admissible(ssbbe.cache.parse, value)
      ensures r.Pass? ==> ssbbe.sqlConnectionString == value
      ensures r.Fail? ==> ssbbe.sqlConnectionString == old(ssbbe.sqlConnectionString)
    {
      r := ssbbe.SetSqlConnectionString(value);
    }

    /** The three flag properties write through to the transport element. */
    method SetFlags(endOnClose: bool, encrypt: bool, useAction: bool)
      modifies ssbbe
      ensures ssbbe.senderEndsConversationOnClose == endOnClose && ssbbe.useEncryption == encrypt
      ensures ssbbe.useActionForSsbMessageType == useAction
      ensures ssbbe.contract == old(ssbbe.contract) && ssbbe.sqlConnectionString == old(ssbbe.sqlConnectionString)
      ensures ssbbe.conversationGroupId == old(ssbbe.conversationGroupId)
    {
      ssbbe.senderEndsConversationOnClose := endOnClose;
      ssbbe.useEncryption := encrypt;
      ssbbe.useActionForSsbMessageType := useAction;
    }
  }

  /** The binding's fixed capabilities. */
  datatype Capabilities = Capabilities(scheme: string, receiveSynchronously: bool, assuresOrderedDelivery: bool,
                                       queuedDelivery: bool)

  /** Scheme, IBindingRuntimePreferences and IBindingDeliveryCapabilities: net.ssb, synchronous, ordered, queued. */
  function BindingCapabilities(): (r: Capabilities)
    ensures r.scheme == Scheme && r.receiveSynchronously && r.assuresOrderedDelivery && r.queuedDelivery
  {
    Capabilities(Scheme, true, true, true)
  }

  /**
   * TryCreate: walks the elements once, remembering the last text encoder and
   * the last Service Broker element, and gives up at the first other element.
   */
  method TryCreate(elements: seq<Element>) returns (binding: SsbBinding?)
    ensures TryCreateResult(elements).None? <==> binding == null
    ensures binding != null ==>
              fresh(binding) && (binding.encbe, binding.ssbbe) == TryCreateResult(elements).value
  {
    if |elements| > MaxElements {
      return null;
    }
    var text: Option<MessageEncoder> := None;
    var ssb: Option<SsbBindingElement> := None;
    var i := 0;
    while i < |elements|
      invariant 0 <= i <= |elements|
      invariant forall j :: 0 <= j < i ==> Recognised(elements[j])
      invariant text == LastTextEncoder(elements[..i])
      invariant ssb == LastSsbElement(elements[..i])
    {
      var e := elements[i];
      assert elements[..i + 1][..i] == elements[..i];
      match e {
        case TextMessageEncoding(enc) =>
          text := Some(enc);
        case Ssb(s) =>
          ssb := Some(s);
        case OtherMessageEncoding(_) =>
          return null;
        case OtherElement(_) =>
          return null;
      }
      i := i + 1;
    }
    assert elements[..i] == elements;
    if ssb.None? || text.None? {
      return null;
    }
    binding := new SsbBinding(ssb.value, text.value);
  }
}

=== FILE: binding_element.dfy ===
/**
 * SsbBindingElement.cs: the transport binding element. It holds the
 * connection string (validated through a cache shared by every element),
 * the optional conversation group a listener is bound to, the contract, and
 * three flags, and it says which channel kinds it builds.
 */
module BindingElement {
  import opened Wrappers
  import opened Errors
  import opened Broker
  import opened SsbConstants
  import SsbHelper

  /** The two options the transport needs, as SqlConnectionStringBuilder reports them. */
  datatype ConnectionOptions = ConnectionOptions(asynchronousProcessing: bool, multipleActiveResultSets: bool)

  /** SqlConnectionStringBuilder: the options of a connection string, or none when its syntax is refused. */
  type ConnectionStringParser = string -> Option<ConnectionOptions>

  /** The checks of ValidateConnectionString on a string that is not cached, in their order. */
  function CheckConnectionString(parse: ConnectionStringParser, constr: string): (r: Outcome)
    ensures r.Pass? <==> parse(constr).Some? && parse(constr).value.asynchronousProcessing &&
                         parse(constr).value.multipleActiveResultSets
    ensures parse(constr).None? ==> r.Fail? && r.error.ArgumentError?
    ensures parse(constr).Some? && !parse(constr).value.asynchronousProcessing ==>
              r == Fail(InvalidOperationError("SQL ConnectionString must have Asynchronous Processing=true"))
    ensures parse(constr).Some? && parse(constr).value.asynchronousProcessing && !parse(constr).value.multipleActiveResultSets ==>
              r == Fail(InvalidOperationError("SQL ConnectionString must have MultipleActiveResultSets=true"))
  {
    match parse(constr)
    case None => Fail(ArgumentError("Format of the initialization string does not conform to specification"))
    case Some(options) =>
      if !options.asynchronousProcessing then
        Fail(InvalidOperationError("SQL ConnectionString must have Asynchronous Processing=true"))
      else if !options.multipleActiveResultSets then
        Fail(InvalidOperationError("SQL ConnectionString must have MultipleActiveResultSets=true"))
      else Pass
  }

  predicate Accepted(parse: ConnectionStringParser, constr: string) {
    CheckConnectionString(parse, constr).Pass?
  }

  /** Whether a (possibly absent) connection string may be stored in an element: an absent one always may. */
  predicate Admissible(parse: ConnectionStringParser, constr: Option<string>) {
    constr.None? || Accepted(parse, constr.value)
  }

  /**
   * The static list of connection strings already validated, shared by every
   * binding element: it saves re-parsing a string seen before.
   */
  class ConnectionStringCache {
    const parse: ConnectionStringParser
    var entries: seq<string>

    /** At most 100 entries, no duplicates, and only strings that passed validation. */
    predicate Valid()
      reads this
    {
      |entries| <= ConnectionStringCacheLimit &&
      (forall i, j :: 0 <= i < j < |entries| ==> entries[i] != entries[j]) &&
      (forall i :: 0 <= i < |entries| ==> Accepted(parse, entries[i]))
    }

    constructor (p: ConnectionStringParser)
      ensures Valid() && parse == p && entries == []
    {
      parse := p;
      entries := [];
    }

    /**
     * ValidateConnectionString: an absent string passes; a cached one passes
     * without being parsed; any other is checked and, when it passes and the
     * cache has room, added.
     */
    method Validate(constr: Option<string>) returns (r: Outcome)
      requires Valid()
      modifies this
      ensures Valid()
      ensures r.Pass? <==> Admissible(parse, constr)
      ensures constr.Some? ==> r == CheckConnectionString(parse, constr.value)
      ensures constr.None? || constr.value in old(entries) ==> r == Pass && entries == old(entries)
      ensures constr.Some? && constr.value !in old(entries) ==>
                entries == if r.Pass? && |old(entries)| < ConnectionStringCacheLimit then old(entries) + [constr.value]
                           else old(entries)
    {
      if constr.None? {
        return Pass;
      }
      var s := constr.value;
      if s in entries {
        return Pass;
      }
      r := CheckConnectionString(parse, s);
      if r.Fail? {
        return;
      }
      if |entries| < ConnectionStringCacheLimit {
        if s !in entries {
          entries := entries + [s];
        }
      }
    }
  }

  /** The kinds of channel WCF may ask a binding element to build. */
  datatype ChannelKind = InputSessionChannel | OutputSessionChannel | OtherChannel(name: string)

  /** CanBuildChannelListener: only input session channels. */
  predicate CanBuildChannelListener(kind: ChannelKind)
    ensures CanBuildChannelListener(kind) ==> !kind.OtherChannel?
  {
    kind == InputSessionChannel
  }

  /**
   * CanBuildChannelFactory: only output session channels, so never a kind a
   * listener is built for; among the session channels, exactly the one kind the
   * listener refuses. BuildChannelFactory itself does not ask.
   */
  predicate CanBuildChannelFactory(kind: ChannelKind)
    ensures CanBuildChannelFactory(kind) ==> !CanBuildChannelListener(kind)
    ensures !kind.OtherChannel? ==> (CanBuildChannelFactory(kind) <==> !CanBuildChannelListener(kind))
  {
    kind == OutputSessionChannel
  }

  /** BuildChannelListener's checks: a binding context, and a channel kind the element can listen for. */
  function CheckBuildChannelListener(hasContext: bool, kind: ChannelKind): (r: Outcome)
    ensures r.Pass? <==> hasContext && kind == InputSessionChannel
    ensures !hasContext ==> r == Fail(ArgumentNullError("context"))
    ensures hasContext && kind != InputSessionChannel ==> r.Fail? && r.error.ArgumentError?
    ensures r.Pass? ==> !CanBuildChannelFactory(kind)
  {
    if !hasContext then Fail(ArgumentNullError("context"))
    else if !CanBuildChannelListener(kind) then Fail(ArgumentError("Unsupported channel type"))
    else Pass
  }

  /** BuildChannelFactory only checks the context: the channel kind is left to CanBuildChannelFactory. */
  function CheckBuildChannelFactory(hasContext: bool, kind: ChannelKind): (r: Outcome)
    ensures r.Pass? <==> hasContext
    ensures !hasContext ==> r == Fail(ArgumentNullError("context"))
  {
    if !hasContext then Fail(ArgumentNullError("context")) else Pass
  }

  class SsbBindingElement {
    var sqlConnectionString: Option<string>
    var conversationGroupId: Option<Guid>
    var senderEndsConversationOnClose: bool
    var contract: string
    var useActionForSsbMessageType: bool
    var useEncryption: bool
    /** The cache shared by all elements (a static field in the source). */
    const cache: ConnectionStringCache

    /** What an element holds once its setters have let it through: a valid connection string and contract. */
    predicate Valid()
      reads this, cache
    {
      cache.Valid() && Admissible(cache.parse, sqlConnectionString) && SsbHelper.ValidateIdentifier(contract).Ok?
    }

    /** An element with every setting given. */
    constructor (cs: Option<string>, group: Option<Guid>, endOnClose: bool, contractName: string,
                 useAction: bool, encrypt: bool, shared: ConnectionStringCache)
      ensures sqlConnectionString == cs && conversationGroupId == group && cache == shared
      ensures senderEndsConversationOnClose == endOnClose && contract == contractName
      ensures useActionForSsbMessageType == useAction && useEncryption == encrypt
    {
      sqlConnectionString := cs;
      conversationGroupId := group;
      senderEndsConversationOnClose := endOnClose;
      contract := contractName;
      useActionForSsbMessageType := useAction;
      useEncryption := encrypt;
      cache := shared;
    }

    /** The public constructors: the connection string is validated, the defaults apply to everything else. */
    static method Create(cs: Option<string>, group: Option<Guid>, shared: ConnectionStringCache)
      returns (r: Result<SsbBindingElement>)
      requires shared.Valid()
      modifies shared
      ensures shared.Valid()
      ensures cs.None? ==> shared.entries == old(shared.entries)
      ensures r.Ok? <==> Admissible(shared.parse, cs)
      ensures r.Err? ==> r.error == CheckConnectionString(shared.parse, cs.value).error
      ensures r.Ok? ==>
                fresh(r.value) && r.value.Valid() && r.value.cache == shared &&
                r.value.sqlConnectionString == cs && r.value.conversationGroupId == group &&
                r.value.contract == DefaultContract && !r.value.senderEndsConversationOnClose &&
                !r.value.useEncryption && !r.value.useActionForSsbMessageType
    {
      var e := new SsbBindingElement(cs, group, false, DefaultContract, false, false, shared);
      var checked := shared.Validate(cs);
      if checked.Fail? {
        return Err(checked.error);
      }
      assert SsbHelper.ValidateIdentifier(DefaultContract).Ok? by {
        assert forall i :: 0 <= i < |DefaultContract| ==> DefaultContract[i] !in SsbHelper.ForbiddenCharacters;
      }
      r := Ok(e);
    }

    /** The SqlConnectionString setter: the value is validated first and stored only when it passes. */
    method SetSqlConnectionString(value: Option<string>) returns (r: Outcome)
      requires Valid()
      modifies this, cache
      ensures Valid()
      ensures r.Pass? <==> Admissible(cache.parse, value)
      ensures r.Pass? ==> sqlConnectionString == value
      ensures r.Fail? ==> sqlConnectionString == old(sqlConnectionString)
      ensures contract == old(contract) && conversationGroupId == old(conversationGroupId)
    {
      r := cache.Validate(value);
      if r.Pass? {
        sqlConnectionString := value;
      }
    }

    /** The Contract setter: a name with a delimiter or a control character is refused and the old contract kept. */
    method SetContract(value: Option<string>) returns (r: Outcome)
      requires Valid()
      modifies this
      ensures Valid()
      ensures value.None? ==> r == Fail(NullReferenceError)
      ensures value.Some? ==> (r.Pass? <==> SsbHelper.ValidateIdentifier(value.value).Ok?)
      ensures r.Pass? ==> contract == value.value
      ensures r.Fail? ==> contract == old(contract)
      ensures sqlConnectionString == old(sqlConnectionString) && conversationGroupId == old(conversationGroupId)
    {
      if value.None? {
        return Fail(NullReferenceError);
      }
      var checked := SsbHelper.ValidateIdentifier(value.value);
      if checked.Err? {
        return Fail(checked.error);
      }
      contract := checked.value;
      r := Pass;
    }

    predicate IsConversationGroupSpecified()
      reads this
    {
      conversationGroupId.Some?
    }

    /** The ConversationGroupId getter: the group, or an InvalidOperationException when none was specified. */
    function ConversationGroupId(): (r: Result<Guid>)
      reads this
      ensures r.Err? <==> !IsConversationGroupSpecified()
      ensures r.Err? ==> r.error == InvalidOperationError("Conversation Group ID not specified")
      ensures r.Ok? ==> conversationGroupId == Some(r.value)
    {
      if conversationGroupId.None? then Err(InvalidOperationError("Conversation Group ID not specified"))
      else Ok(conversationGroupId.value)
    }

    method SetConversationGroupId(group: Guid)
      modifies this
      ensures conversationGroupId == Some(group) && ConversationGroupId() == Ok(group)
      ensures sqlConnectionString == old(sqlConnectionString) && contract == old(contract)
      ensures senderEndsConversationOnClose == old(senderEndsConversationOnClose)
      ensures useEncryption == old(useEncryption) && useActionForSsbMessageType == old(useActionForSsbMessageType)
    {
      conversationGroupId := Some(group);
    }

    /**
     * The copy constructor behind Clone: the connection string goes through
     * its setter again, which cannot fail for a string this element holds;
     * every other setting is copied as it is.
     */
    method Clone() returns (c: SsbBindingElement)
      requires Valid()
      modifies cache
      ensures Valid() && c.Valid()
      ensures fresh(c) && c.cache == cache
      ensures c.sqlConnectionString == sqlConnectionString && c.contract == contract
      ensures c.senderEndsConversationOnClose == senderEndsConversationOnClose
      ensures c.useEncryption == useEncryption && c.useActionForSsbMessageType == useActionForSsbMessageType
      ensures c.conversationGroupId == conversationGroupId
    {
      var checked := cache.Validate(sqlConnectionString);
      var group := if IsConversationGroupSpecified() then conversationGroupId else None;
      c := new SsbBindingElement(sqlConnectionString, group, senderEndsConversationOnClose, contract,
                                 useActionForSsbMessageType, useEncryption, cache);
    }
  }
}

=== FILE: broker.dfy ===
/**
 * The database side of the transport, seen from the client: identifiers, the
 * connection and the transaction objects the code opens, disposes, commits and
 * rolls back, the commands it issues, and the outcomes a broker wait can have.
 * The broker itself is not modelled: every command's outcome is a parameter.
 */
module Broker {
  import opened Wrappers

  /** A uniqueidentifier; `EmptyGuid` is Guid.Empty. */
  type Guid = nat
  const EmptyGuid: Guid := 0

  newtype byte = x: int | 0 <= x < 256

  /** The commands the transport sends over a connection, in the shape it builds them. */
  datatype Command =
    | LockGroup(group: Guid)                          // sp_getapplock, exclusive, waiting
    | GroupRetryBatch(queue: string, timeoutMs: int)  // savepoint / GET CONVERSATION GROUP / non-blocking lock loop
    | ReceiveBatch(queue: string, group: Guid, timeoutMs: int)
    | BeginDialog(source: string, target: string, contract: string, encryption: bool, relatedGroup: Option<Guid>)
    | SendOnConversation(handle: Guid, messageType: string, body: seq<byte>)
    | EndConversation(handle: Guid)
    | EndConversationWithError(handle: Guid, code: int, description: string)
    | BeginConversationTimer(handle: Guid, seconds: int)

  /** The InvalidOperationException text ADO.NET gives a command on a connection that is not open. */
  const ConnectionNotOpenMessage: string :=
    "ExecuteNonQuery requires an open and available Connection. The connection's current state is closed."

  /** A SqlConnection: whether it is open, whether it was disposed, and what was issued on it. */
  class Connection {
    var isOpen: bool
    var disposed: bool
    var log: seq<Command>

    constructor Open()
      ensures isOpen && !disposed && log == []
    {
      isOpen, disposed, log := true, false, [];
    }

    method Close()
      modifies this
      ensures !isOpen && disposed == old(disposed) && log == old(log)
    {
      isOpen := false;
    }

    method Dispose()
      modifies this
      ensures !isOpen && disposed && log == old(log)
    {
      isOpen, disposed := false, true;
    }

    method Issue(c: Command)
      modifies this
      ensures log == old(log) + [c]
      ensures isOpen == old(isOpen) && disposed == old(disposed)
    {
      log := log + [c];
    }
  }

  datatype TxStatus = Active | Committed | Aborted

  /** A CommittableTransaction. */
  class Transaction {
    var status: TxStatus

    constructor ()
      ensures status == Active
    {
      status := Active;
    }

    method Commit()
      requires status == Active
      modifies this
      ensures status == Committed
    {
      status := Committed;
    }

    /** Rolls back an active transaction; a completed one keeps its status. */
    method Rollback()
      modifies this
      ensures status == if old(status) == Active then Aborted else old(status)
    {
      if status == Active {
        status := Aborted;
      }
    }
  }

  /** One row of a RECEIVE batch. `storedLength` is what the column reports, `body` what the stream yields. */
  datatype Row = Row(
    conversationHandle: Guid,
    serviceName: string,
    messageTypeName: string,
    body: seq<byte>,
    storedLength: nat,
    sequence: int)

  /** What a cancellable RECEIVE wait yields. */
  datatype FetchOutcome =
    | FetchCancelled          // the cancel event won the race
    | FetchFailed             // EndExecuteReader raised a SqlException
    | Fetched(rows: seq<Row>) // the batch (empty when the WAITFOR expired)

  /** Outcome of a command that returns nothing. */
  datatype Exec = Done | SqlFailed(number: int)
}

=== FILE: channel_factory.dfy ===
/**
 * SsbChannelFactory.cs: builds output session channels. It takes its
 * settings from the transport binding element once, chooses the message
 * encoder from the binding parameters, and hands both to every channel.
 */
module ChannelFactory {
  import opened Wrappers
  import opened Errors
  import opened Broker
  import opened Uris
  import opened Communication
  import U = SsbUri
  import opened Messages
  import opened BindingElement
  import opened Binding
  import opened Sender
  import opened OutputChannel

  /**
   * The encoder choice: more than one message-encoding element among the
   * binding parameters is an error, exactly one supplies the encoder, none
   * leaves the default text encoder.
   */
  function SelectEncoder(encodingElements: seq<MessageEncoder>, defaultEncoder: MessageEncoder): (r: Result<MessageEncoder>)
    ensures r.Err? <==> |encodingElements| > 1
    ensures r.Err? ==> r.error.InvalidOperationError?
    ensures r.Ok? ==> r.value == defaultEncoder || r.value in encodingElements
    ensures r.Ok? && r.value != defaultEncoder ==> encodingElements == [r.value]
    ensures encodingElements == [] ==> r == Ok(defaultEncoder)
  {
    if |encodingElements| > 1 then
      Err(InvalidOperationError("More than one MessageEncodingBindingElement was found in the BindingParameters of the BindingContext"))
    else if |encodingElements| == 1 then Ok(encodingElements[0])
    else Ok(defaultEncoder)
  }

  class SsbChannelFactory {
    const connstr: Option<string>
    const bufferManager: BufferPool
    const endConversationOnClose: bool
    const useEncryption: bool
    const contract: string
    const useActionForSsbMessageType: bool
    const encoder: MessageEncoder
    const binding: SsbBinding

    constructor (cs: Option<string>, pool: BufferPool, endOnClose: bool, encrypt: bool, contractName: string,
                 useAction: bool, enc: MessageEncoder, b: SsbBinding)
      ensures connstr == cs && bufferManager == pool && endConversationOnClose == endOnClose
      ensures useEncryption == encrypt && contract == contractName && useActionForSsbMessageType == useAction
      ensures encoder == enc && binding == b
    {
      connstr := cs;
      bufferManager := pool;
      endConversationOnClose := endOnClose;
      useEncryption := encrypt;
      contract := contractName;
      useActionForSsbMessageType := useAction;
      encoder := enc;
      binding := b;
    }

    /** The constructor: the element's settings are copied, then the encoder is chosen. */
    static method Create(be: SsbBindingElement, encodingParameters: seq<MessageEncoder>, defaultEncoder: MessageEncoder,
                         b: SsbBinding)
      returns (r: Result<SsbChannelFactory>)
      ensures r.Err? <==> |encodingParameters| > 1
      ensures r.Err? ==> r.error == SelectEncoder(encodingParameters, defaultEncoder).error
      ensures r.Ok? ==>
                var f := r.value;
                fresh(f) && fresh(f.bufferManager) && f.bufferManager.returned == [] &&
                f.connstr == be.sqlConnectionString && f.endConversationOnClose == be.senderEndsConversationOnClose &&
                f.useEncryption == be.useEncryption && f.contract == be.contract &&
                f.useActionForSsbMessageType == be.useActionForSsbMessageType &&
                f.encoder == SelectEncoder(encodingParameters, defaultEncoder).value && f.binding == b
    {
      var pool := new BufferPool();
      var enc := SelectEncoder(encodingParameters, defaultEncoder);
      if enc.Err? {
        return Err(enc.error);
      }
      var f := new SsbChannelFactory(be.sqlConnectionString, pool, be.senderEndsConversationOnClose, be.useEncryption,
                                     be.contract, be.useActionForSsbMessageType, enc.value, b);
      r := Ok(f);
    }

    /** OnCreateChannel: a channel to the given address carrying every setting the factory holds. */
    method OnCreateChannel(remote: Option<Uri>, via: Option<Uri>) returns (r: Result<SsbOutputSessionChannel>)
      ensures r.Ok? <==> via.Some? && connstr.Some? && connstr.value != "" && U.Parse(via.value).Ok?
      ensures via.None? ==> r == Err(ArgumentNullError("via"))
      ensures via.Some? && (connstr.None? || connstr.value == "") ==> r == Err(ArgumentNullError("connectionString"))
      ensures r.Ok? ==>
                var ch := r.value;
                fresh(ch) && fresh(ch.sender) && ch.state == Created &&
                Some(ch.connectionString) == connstr && ch.via == via.value && ch.to == remote &&
                ch.bufferManager == bufferManager && ch.encoder == encoder.write &&
                ch.sender.endConversationOnClose == endConversationOnClose && ch.contract == contract &&
                ch.useEncryption == useEncryption && ch.useActionForSsbMessageType == useActionForSsbMessageType
    {
      r := SsbOutputSessionChannel.Create(true, connstr, via, remote, bufferManager, Some(encoder.write),
                                          endConversationOnClose, contract, useEncryption, useActionForSsbMessageType);
    }
  }

  /**
   * CreateResponseBinding: the binding's elements with the transport
   * element's conversation group set. An SsbBinding hands out its own element
   * objects, so the group is set on the original binding's element too.
   */
  method CreateResponseBinding(b: SsbBinding, groupId: Guid) returns (elements: seq<Element>)
    modifies b.ssbbe
    ensures elements == [TextMessageEncoding(b.encbe), Ssb(b.ssbbe)]
    ensures b.ssbbe.ConversationGroupId() == Ok(groupId)
    ensures b.ssbbe.sqlConnectionString == old(b.ssbbe.sqlConnectionString) && b.ssbbe.contract == old(b.ssbbe.contract)
  {
    elements := b.CreateBindingElements();
    b.ssbbe.SetConversationGroupId(groupId);
  }
}

=== FILE: communication.dfy ===
/**
 * The part of WCF's CommunicationObject the transport relies on: the state
 * every channel, sender, receiver and listener is in, the guard
 * ThrowIfDisposedOrNotOpen, and which override (OnOpen, OnClose, OnAbort)
 * Open, Close and Abort run from each state.
 */
module Communication {
  import opened Errors

  datatype CommunicationState = Created | Opening | Opened | Closing | Closed | Faulted

  /** ThrowIfDisposedOrNotOpen: passes exactly in the Opened state. */
  function RequireOpen(s: CommunicationState): (r: Outcome)
    ensures r.Pass? <==> s == Opened
    ensures r.Fail? ==> r.error == NotOpenError
  {
    if s == Opened then Pass else Fail(NotOpenError)
  }

  /** Open is accepted only from Created; any other state is an invalid transition. */
  function OpenAllowed(s: CommunicationState): (r: Outcome)
    ensures r.Pass? <==> s == Created
    ensures r.Fail? ==> r.error.InvalidOperationError?
  {
    if s == Created then Pass else Fail(InvalidOperationError("The communication object cannot be opened in its current state"))
  }

  /** Which override a shutdown call runs. */
  datatype Shutdown = NoShutdown | RunOnClose | RunOnAbort

  /** Close: a graceful close from Opened, an abort from a state that never finished opening or faulted, nothing once closing. */
  function CloseAction(s: CommunicationState): (a: Shutdown)
    ensures a == RunOnClose <==> s == Opened
    ensures a == NoShutdown <==> s == Closing || s == Closed
  {
    match s
    case Opened => RunOnClose
    case Closing => NoShutdown
    case Closed => NoShutdown
    case _ => RunOnAbort
  }

  /** Abort runs OnAbort from every state except Closed. */
  function AbortAction(s: CommunicationState): (a: Shutdown)
    ensures a != RunOnClose
    ensures a == NoShutdown <==> s == Closed
  {
    if s == Closed then NoShutdown else RunOnAbort
  }
}

=== FILE: constants.dfy ===
/** The transport's fixed names and identifiers (SsbConstants.cs). */
module SsbConstants {

  const Scheme: string := "net.ssb"
  const SsbConversationMessageProperty: string := "SsbConversationMessageProperty"
  const SsbEndDialogMessage: string := "http://schemas.microsoft.com/SQL/ServiceBroker/EndDialog"
  const SsbErrorMessage: string := "http://schemas.microsoft.com/SQL/ServiceBroker/Error"
  const SsbDialogTimerMessage: string := "http://schemas.microsoft.com/SQL/ServiceBroker/DialogTimer"
  const DefaultMessageType: string := "DEFAULT"
  const DefaultContract: string := "DEFAULT"
  /** The default open and close timeouts: two minutes, in milliseconds. */
  const DefaultOpenTimeoutMs: int := 120000
  const DefaultCloseTimeoutMs: int := 120000
  /** Broker error number raised by SEND on a conversation that can no longer send. */
  const ConversationDisabledError: int := 8429
  /** Largest number of validated connection strings kept in the cache. */
  const ConnectionStringCacheLimit: nat := 100
}

=== FILE: conversation_info.dfy ===
/**
 * ConversationInfo.cs: the metadata of one conversation endpoint and the table
 * of conversation state codes.
 */
module ConversationInfo {
  import opened Errors
  import opened Broker

  /** The seven state codes of sys.conversation_endpoints and their descriptions. */
  const TransmissionStates: map<string, string> := map[
    "SO" := "Started Outbound",
    "SI" := "Started Inbound",
    "CO" := "Conversing",
    "DI" := "Disconnected",
    "DO" := "Disconnected Outbound",
    "ER" := "Error",
    "CD" := "Closed"]

  /** GetTransmissionStateDescription: the table lookup; a code not in the table fails as the dictionary does. */
  function GetTransmissionStateDescription(code: string): (r: Result<string>)
    ensures r.Ok? <==> code in TransmissionStates
    ensures r.Err? ==> r.error == KeyNotFoundError(code)
    ensures r.Ok? ==> r.value == TransmissionStates[code]
  {
    if code in TransmissionStates then Ok(TransmissionStates[code]) else Err(KeyNotFoundError(code))
  }

  datatype ConversationInfo = ConversationInfo(
    serviceName: string,
    queueName: string,
    targetServiceName: string,
    conversationId: Guid,
    conversationHandle: Guid,
    conversationGroupId: Guid,
    state: string)
  {
    /** StateDescription: the description of this conversation's state, read straight from the table. */
    function StateDescription(): (r: Result<string>)
      ensures r.Ok? <==> state in TransmissionStates
      ensures r.Ok? ==> r.value == TransmissionStates[state]
      ensures r.Err? ==> r.error == KeyNotFoundError(state)
      ensures r == GetTransmissionStateDescription(state)
    {
      if state in TransmissionStates then Ok(TransmissionStates[state]) else Err(KeyNotFoundError(state))
    }
  }

  /** The table holds exactly the seven codes, each with its own description. */
  lemma StateTableIsExact()
    ensures TransmissionStates.Keys == {"SO", "SI", "CO", "DI", "DO", "ER", "CD"}
    ensures |TransmissionStates| == 7
    ensures forall a, b :: a in TransmissionStates && b in TransmissionStates && a != b ==>
              TransmissionStates[a] != TransmissionStates[b]
  {
    var keys := {"SO", "SI", "CO", "DI", "DO", "ER", "CD"};
    assert TransmissionStates.Keys == keys;
    assert |keys| == 7 by {
      assert "SO" != "SI" && "SO" != "CO";
    }
  }
}

=== FILE: errors.dfy ===
/**
 * The exceptions the transport raises, as values. A member that throws in the
 * C# code returns `Err(f)` here, with `f` naming the exception type and the
 * data the exception carries.
 */
module Errors {
  import opened Wrappers

  datatype Failure =
    | ArgumentNullError(paramName: string)        // ArgumentNullException
    | ArgumentError(reason: string)               // ArgumentException
    | InvalidOperationError(reason: string)       // InvalidOperationException
    | NotOpenError                                // ThrowIfDisposedOrNotOpen: object is not in the Opened state
    | NullReferenceError                          // a null dereference in the C# code
    | KeyNotFoundError(key: string)               // Dictionary lookup of a missing key
    | TimeoutError                                // TimeoutException
    | CommunicationError(inner: Option<string>)   // CommunicationException, with the inner message when one is known
    | ProtocolError(reason: string)               // ProtocolException
    | BrokerErrorMessage(code: int, description: string) // ProtocolException "Service Broker Error Message {code}: {description}"
    | MalformedErrorPayload                       // the XML error payload could not be read
    | SqlError(number: int)                       // a SqlException that propagates unwrapped
    | GeneralError(reason: string)                // System.Exception

  datatype Result<+T> = Ok(value: T) | Err(error: Failure)

  datatype Outcome = Pass | Fail(error: Failure)

  /**
   * How a backend (SQL) failure during a bounded operation is reported:
   * TimeoutException once the deadline has passed, CommunicationException otherwise.
   */
  function BackendFailure(timeRemaining: bool, inner: Option<string>): (f: Failure)
    ensures f == TimeoutError <==> !timeRemaining
    ensures timeRemaining ==> f.CommunicationError? && f.inner == inner
  {
    if timeRemaining then CommunicationError(inner) else TimeoutError
  }
}

=== FILE: input_channel.dfy ===
/**
 * SsbInputSessionChannel.cs: the service-side channel over one conversation
 * group receiver. Each Receive polls the receiver without waiting, ends a
 * conversation whose end-dialog message arrives, and turns a received body
 * into a message addressed to the listen address.
 */
module InputChannel {
  import opened Wrappers
  import opened Errors
  import opened Broker
  import opened Uris
  import opened Communication
  import opened SsbConstants
  import opened SsbConversation
  import opened Instrumentation
  import opened Messages
  import opened Receiver

  /** What the channel does with one result of the receiver. */
  datatype Handling =
    | EndThenNothing(handle: Guid) // end the conversation, return null
    | Nothing                      // return null
    | Deliver(message: Message)    // return the decoded message

  /**
   * The branch on the receiver's result: an end-dialog context ends its
   * conversation and yields nothing; a missing body yields nothing; a body is
   * decoded, tagged with its conversation context, and addressed to the listen
   * address.
   */
  function Handle(d: Delivery, readMessage: MessageReader, listenAddress: Uri): (h: Handling)
    ensures h.EndThenNothing? <==> d.conversation.Some? && d.conversation.value.MessageTypeName == SsbEndDialogMessage
    ensures h.EndThenNothing? ==> h.handle == d.conversation.value.ConversationHandle
    ensures h.Nothing? <==> d.body.None? && !h.EndThenNothing?
    ensures h.Deliver? ==> d.body.Some? && h.message.to == Some(listenAddress)
    ensures h.Deliver? && d.conversation.Some? ==>
              var decoded := readMessage(d.body.value[..Clamp(d.length, |d.body.value|)]);
              h.message == decoded.(properties := decoded.properties[SsbConversationMessageProperty := d.conversation.value],
                                    to := Some(listenAddress))
    ensures h.Deliver? && d.conversation.Some? ==>
              SsbConversationMessageProperty in h.message.properties &&
              h.message.properties[SsbConversationMessageProperty] == d.conversation.value
  {
    if d.conversation.Some? && d.conversation.value.MessageTypeName == SsbEndDialogMessage then
      EndThenNothing(d.conversation.value.ConversationHandle)
    else if d.body.None? then
      Nothing
    else if d.conversation.None? then
      Deliver(readMessage(d.body.value[..Clamp(d.length, |d.body.value|)]).(to := Some(listenAddress)))
    else
      var m := readMessage(d.body.value[..Clamp(d.length, |d.body.value|)]);
      Deliver(m.(properties := m.properties[SsbConversationMessageProperty := d.conversation.value],
                 to := Some(listenAddress)))
  }

  /** The segment length handed to the encoder, kept within the buffer. */
  function Clamp(n: int, limit: nat): (r: nat)
    ensures r <= limit
    ensures 0 <= n <= limit ==> r == n
  {
    if n < 0 then 0 else if n > limit then limit else n
  }

  /** TryReceive: only a TimeoutException becomes false; a null message is still a success. */
  function TryReceiveResult(r: Result<Option<Message>>): (t: Result<bool>)
    ensures t == Ok(false) <==> r == Err(TimeoutError)
    ensures t == Ok(true) <==> r.Ok?
    ensures t.Err? ==> r.Err? && t.error == r.error && r.error != TimeoutError
  {
    if r.Ok? then Ok(true)
    else if r.error == TimeoutError then Ok(false)
    else Err(r.error)
  }

  class SsbInputSessionChannel {
    var state: CommunicationState
    const receiver: SsbConversationGroupReceiver
    const listenAddress: Uri
    const readMessage: MessageReader

    constructor (cg: SsbConversationGroupReceiver, address: Uri, reader: MessageReader)
      ensures state == Created && receiver == cg && listenAddress == address && readMessage == reader
    {
      state := Created;
      receiver := cg;
      listenAddress := address;
      readMessage := reader;
    }

    /**
     * Receive(timeout): the caller's timeout is not used; the receiver is
     * polled with a zero timeout and a pooled buffer. `delivered` is the
     * receiver's result, which Handle turns into the channel's result.
     */
    method Receive(fetch: FetchOutcome, decode: ErrorDecoder, stats: Statistics, endOutcome: Exec, timeRemaining: bool)
      returns (r: Result<Option<Message>>, ghost delivered: Result<Delivery>)
      requires receiver.Valid() && stats.Valid()
      modifies receiver, receiver.con, stats
      ensures receiver.Valid() && stats.Valid()
      ensures receiver.state == old(receiver.state) && receiver.tx == old(receiver.tx)
      ensures state != Opened ==> r == Err(NotOpenError) && unchanged(receiver, receiver.con, stats)
      ensures state == Opened && delivered.Err? ==> r == Err(delivered.error) && !delivered.error.TimeoutError?
      ensures state == Opened && delivered.Ok? ==>
                match Handle(delivered.value, readMessage, listenAddress)
                case EndThenNothing(h) =>
                  |receiver.con.log| >= 1 && receiver.con.log[|receiver.con.log| - 1] == Command.EndConversation(h) &&
                  (endOutcome.Done? ==> r == Ok(None)) &&
                  (endOutcome.SqlFailed? ==> r == Err(BackendFailure(timeRemaining, None)))
                case Nothing => r == Ok(None)
                case Deliver(m) => r == Ok(Some(m))
      ensures state == Opened && old(receiver.state) == Opened && old(receiver.queued).None? && old(receiver.NeedsBatch()) ==>
                |receiver.con.log| > |old(receiver.con.log)| &&
                receiver.con.log[..|old(receiver.con.log)| + 1] ==
                  old(receiver.con.log) + [ReceiveBatch(receiver.queueName, receiver.groupId, 0)] &&
                delivered == BatchDelivery(fetch, receiver.groupId, decode)
      ensures state == Opened && old(receiver.state) != Opened ==> delivered == Err(NotOpenError)
      ensures state == Opened && old(receiver.state) == Opened && old(receiver.queued).Some? ==>
                var q := old(receiver.queued).value;
                delivered == Ok(Delivery(Some(q.body), q.length, Some(q.conversation)))
      ensures state == Opened && old(receiver.state) == Opened && old(receiver.queued).None? &&
              old(receiver.reader).Some? && old(receiver.reader).value.closed ==>
                delivered.Err? && delivered.error.InvalidOperationError?
      ensures state == Opened && old(receiver.state) == Opened && old(receiver.queued).None? && old(receiver.HasNextRow()) ==>
                var rd := old(receiver.reader).value;
                delivered == Classify(rd.rows[rd.position], receiver.groupId, decode)
    {
      delivered := Ok(NoMessage);
      var open := RequireOpen(state);
      if open.Fail? {
        return Err(open.error), delivered;
      }
      var d := receiver.Receive(0, true, fetch, decode, stats);
      delivered := d;
      if d.Err? {
        return Err(d.error), delivered;
      }
      match Handle(d.value, readMessage, listenAddress) {
        case EndThenNothing(h) =>
          var ended := receiver.EndConversation(h, endOutcome, timeRemaining);
          r := if ended.Pass? then Ok(None) else Err(ended.error);
        case Nothing =>
          r := Ok(None);
        case Deliver(m) =>
          r := Ok(Some(m));
      }
    }

    /**
     * TryReceive: Receive, with a timeout reported as false. The receiver never
     * times out itself (its wait is the RECEIVE's own WAITFOR), so false means
     * that ending a conversation on its end-dialog message failed after the
     * deadline.
     */
    method TryReceive(fetch: FetchOutcome, decode: ErrorDecoder, stats: Statistics, endOutcome: Exec, timeRemaining: bool)
      returns (t: Result<bool>, message: Option<Message>, ghost received: Result<Option<Message>>)
      requires receiver.Valid() && stats.Valid()
      modifies receiver, receiver.con, stats
      ensures receiver.Valid() && stats.Valid()
      ensures t == TryReceiveResult(received)
      ensures message == if received.Ok? then received.value else None
      ensures t == Ok(false) ==> endOutcome.SqlFailed? && !timeRemaining
      ensures state != Opened ==> t == Err(NotOpenError)
    {
      var r, delivered := Receive(fetch, decode, stats, endOutcome, timeRemaining);
      received := r;
      t := TryReceiveResult(r);
      message := if r.Ok? then r.value else None;
    }

    /** OnOpen: opens the receiver unless it is already open. */
    method OnOpen() returns (r: Outcome)
      modifies receiver
      ensures old(receiver.state) == Opened ==> r == Pass && unchanged(receiver)
      ensures old(receiver.state) != Opened ==> r == OpenAllowed(old(receiver.state))
      ensures receiver.state == (if old(receiver.state) == Created then Opened else old(receiver.state))
      ensures receiver.reader == old(receiver.reader) && receiver.queued == old(receiver.queued) && receiver.tx == old(receiver.tx)
    {
      if receiver.state == Opened {
        return Pass;
      }
      r := receiver.Open();
    }

    /** OnClose: closes the receiver, which commits its transaction if still active. */
    method OnClose()
      requires receiver.Valid()
      modifies receiver, receiver.con, receiver.tx
      ensures receiver.Valid() && receiver.tx == old(receiver.tx)
      ensures old(receiver.state) == Opened ==> receiver.state == Closed && receiver.con.disposed
      ensures old(receiver.state) == Opened && receiver.tx != null ==>
                receiver.tx.status == (if old(receiver.tx.status) == Active then Committed else old(receiver.tx.status))
    {
      receiver.Close();
    }

    /** OnAbort: aborts the receiver, which rolls its transaction back. */
    method OnAbort()
      requires receiver.Valid()
      modifies receiver, receiver.con, receiver.tx
      ensures receiver.Valid() && receiver.tx == old(receiver.tx)
      ensures old(receiver.state) != Closed ==> receiver.state == Closed && receiver.con.disposed
      ensures old(receiver.state) != Closed && receiver.tx != null ==>
                receiver.tx.status == (if old(receiver.tx.status) == Active then Aborted else old(receiver.tx.status))
    {
      receiver.Abort();
    }

    /** Open: Created to Opened through OnOpen. */
    method Open() returns (r: Outcome)
      modifies this, receiver
      ensures r.Pass? ==> state == Opened && receiver.state != Created
      ensures old(state) != Created ==> r == OpenAllowed(old(state)) && state == old(state)
    {
      r := OpenAllowed(state);
      if r.Fail? {
        return;
      }
      state := Opening;
      r := OnOpen();
      state := if r.Pass? then Opened else Faulted;
    }
  }
}

=== FILE: instrumentation.dfy ===
/**
 * SsbInstrumentation.cs: four process-wide Int32 counters updated with
 * Interlocked.Add / Interlocked.Increment, which wrap around on overflow.
 * The static class becomes one object that the channels share.
 */
module Instrumentation {

  const Int32Min: int := -0x8000_0000
  const Int32Max: int := 0x7FFF_FFFF
  const Int32Span: int := 0x1_0000_0000

  predicate IsInt32(x: int) { Int32Min <= x <= Int32Max }

  /** Two's-complement Int32 addition, as Interlocked.Add performs it. */
  function Add32(a: int, b: int): (r: int)
    ensures IsInt32(r)
    ensures (a + b - r) % Int32Span == 0
    ensures IsInt32(a + b) ==> r == a + b
  {
    (a + b - Int32Min) % Int32Span + Int32Min
  }

  /** Incrementing the largest Int32 yields the smallest one. */
  lemma IncrementWraps()
    ensures Add32(Int32Max, 1) == Int32Min
  {
  }

  /** Wrapped addition accumulates: adding b then c lands where adding b + c at once does, so a counter holds its true total modulo 2^32. */
  lemma Add32Accumulates(a: int, b: int, c: int)
    ensures Add32(Add32(a, b), c) == Add32(a, b + c)
  {
    var r1 := Add32(a, b);
    var r2 := Add32(r1, c);
    var r3 := Add32(a, b + c);
    assert (r2 - r3) % Int32Span == 0 by {
      assert (a + b - r1) % Int32Span == 0;
      assert (r1 + c - r2) % Int32Span == 0;
      assert (a + b + c - r3) % Int32Span == 0;
      var k1 := (a + b - r1) / Int32Span;
      var k2 := (r1 + c - r2) / Int32Span;
      var k3 := (a + b + c - r3) / Int32Span;
      assert a + b - r1 == k1 * Int32Span;
      assert r1 + c - r2 == k2 * Int32Span;
      assert a + b + c - r3 == k3 * Int32Span;
      assert r3 - r2 == (k1 + k2 - k3) * Int32Span;
    }
    assert -Int32Span < r2 - r3 < Int32Span;
  }

  class Statistics {
    var messagesSent: int
    var bytesSent: int
    var messagesReceived: int
    var bytesReceived: int

    predicate Valid()
      reads this
    {
      IsInt32(messagesSent) && IsInt32(bytesSent) && IsInt32(messagesReceived) && IsInt32(bytesReceived)
    }

    constructor ()
      ensures Valid()
      ensures messagesSent == 0 && bytesSent == 0 && messagesReceived == 0 && bytesReceived == 0
    {
      messagesSent, bytesSent, messagesReceived, bytesReceived := 0, 0, 0, 0;
    }

    /** MessageSent: adds the size to the bytes sent and counts one message; the receive counters do not move. */
    method MessageSent(messageSize: int)
      requires Valid()
      modifies this
      ensures Valid()
      ensures bytesSent == Add32(old(bytesSent), messageSize)
      ensures messagesSent == Add32(old(messagesSent), 1)
      ensures messagesReceived == old(messagesReceived) && bytesReceived == old(bytesReceived)
    {
      bytesSent := Add32(bytesSent, messageSize);
      messagesSent := Add32(messagesSent, 1);
    }

    /** MessageRecieved: adds the size to the bytes received and counts one message; the send counters do not move. */
    method MessageReceived(messageSize: int)
      requires Valid()
      modifies this
      ensures Valid()
      ensures bytesReceived == Add32(old(bytesReceived), messageSize)
      ensures messagesReceived == Add32(old(messagesReceived), 1)
      ensures messagesSent == old(messagesSent) && bytesSent == old(bytesSent)
    {
      bytesReceived := Add32(bytesReceived, messageSize);
      messagesReceived := Add32(messagesReceived, 1);
    }
  }
}

=== FILE: listener.dfy ===
/**
 * SsbChannelListener.cs: accepts one input channel per conversation group.
 * With a group fixed in the binding it locks that group and waits for its
 * first message (targeted mode); otherwise it runs a T-SQL batch that waits
 * for any group with a message and skips groups another listener holds
 * (open mode). The accepted group's connection and transaction are handed to
 * a new receiver.
 */
module Listener {
  import opened Wrappers
  import opened Errors
  import opened Broker
  import opened Uris
  import opened Communication
  import opened SsbConstants
  import U = SsbUri
  import opened Instrumentation
  import opened Messages
  import SsbHelper
  import opened Receiver
  import opened InputChannel

  datatype ListenUriMode = Explicit | Unique

  /** new Uri(base, relative): resolution of a relative reference is System.Uri's and is supplied. */
  type UriCombiner = (Uri, string) -> Uri

  predicate EndsWithSlash(path: string) { |path| > 0 && path[|path| - 1] == '/' }

  /** The base address with "/" appended to its path unless the path already ends with one. */
  function WithTrailingSlash(u: Uri): (r: Uri)
    ensures EndsWithSlash(r.path)
    ensures r == u.(path := r.path)
    ensures EndsWithSlash(u.path) ==> r == u
    ensures !EndsWithSlash(u.path) ==> r.path == u.path + "/"
  {
    if EndsWithSlash(u.path) then u else u.(path := u.path + "/")
  }

  /**
   * BuildUri: both addresses are required, the base must be absolute and of the
   * net.ssb scheme in any letter case; an empty relative address leaves the
   * base as it is, any other is resolved against the base with a trailing slash.
   */
  function BuildUri(baseAddress: Option<Uri>, relativeAddress: Option<string>, combine: UriCombiner): (r: Result<Uri>)
    ensures baseAddress.None? ==> r == Err(ArgumentNullError("baseAddress"))
    ensures baseAddress.Some? && relativeAddress.None? ==> r == Err(ArgumentNullError("relativeAddress"))
    ensures baseAddress.Some? && relativeAddress.Some? && !baseAddress.value.isAbsolute ==>
              r.Err? && r.error.ArgumentError?
    ensures baseAddress.Some? && relativeAddress.Some? && !U.EqualsIgnoreCase(baseAddress.value.scheme, Scheme) ==>
              r.Err? && r.error.ArgumentError?
    ensures r.Ok? <==> baseAddress.Some? && relativeAddress.Some? && baseAddress.value.isAbsolute &&
                       U.EqualsIgnoreCase(baseAddress.value.scheme, Scheme)
    ensures r.Ok? && relativeAddress.value == "" ==> r.value == baseAddress.value
    ensures r.Ok? && relativeAddress.value != "" ==> r.value == combine(WithTrailingSlash(baseAddress.value), relativeAddress.value)
  {
    if baseAddress.None? then Err(ArgumentNullError("baseAddress"))
    else if relativeAddress.None? then Err(ArgumentNullError("relativeAddress"))
    else
      var base := baseAddress.value;
      if !base.isAbsolute then Err(ArgumentError("Base address must be an absolute URI."))
      else if !U.EqualsIgnoreCase(base.scheme, Scheme) then Err(ArgumentError("Invalid URI scheme"))
      else if relativeAddress.value == "" then Ok(base)
      else Ok(combine(WithTrailingSlash(base), relativeAddress.value))
  }

  /** Appending the slash is done once: a base that already ends in "/" is resolved as it is. */
  lemma TrailingSlashIdempotent(u: Uri)
    ensures WithTrailingSlash(WithTrailingSlash(u)) == WithTrailingSlash(u)
  {
  }

  /** The constructor's address checks: an explicit, non-null base, and a full address that is a net.ssb address. */
  function CheckListenAddress(mode: ListenUriMode, baseAddress: Option<Uri>, relativeAddress: Option<string>,
                              combine: UriCombiner): (r: Result<U.SsbUri>)
    ensures mode == Unique ==> r.Err? && r.error.ProtocolError?
    ensures mode == Explicit && baseAddress.None? ==> r.Err? && r.error.ProtocolError?
    ensures r.Ok? <==> mode == Explicit && baseAddress.Some? &&
                       BuildUri(baseAddress, relativeAddress, combine).Ok? &&
                       U.Parse(BuildUri(baseAddress, relativeAddress, combine).value).Ok?
    ensures r.Ok? ==> r.value.uri == BuildUri(baseAddress, relativeAddress, combine).value
  {
    if mode == Unique then Err(ProtocolError("ListenUriMode.Unique is not supported. You must provide an explicit address"))
    else if baseAddress.None? then Err(ProtocolError("Address is null. You must provide an exlpicit address"))
    else
      var full := BuildUri(baseAddress, relativeAddress, combine);
      if full.Err? then Err(full.error)
      else
        var parsed := U.Parse(full.value);
        assert mode == Explicit;
        parsed
  }

  /**
   * One pass through the open-mode batch's retry label: the group
   * GET CONVERSATION GROUP returned (none when its WAITFOR expired) and the
   * code of the non-blocking sp_getapplock on it.
   */
  datatype Attempt = Attempt(group: Option<Guid>, lockCode: int)

  /** sp_getapplock's code for "the lock is held elsewhere" when the lock timeout is zero. */
  const LockTimedOut: int := -1

  /**
   * The group the batch ends with: none once a wait expires (or the recorded
   * passes run out), the group of the first pass whose lock did not time out,
   * after rolling back every pass whose lock did. A group it yields was found
   * by some pass and locked there.
   */
  function RetryOutcome(attempts: seq<Attempt>): (group: Option<Guid>)
    ensures group.Some? ==>
              exists i :: 0 <= i < |attempts| && attempts[i].group == group && attempts[i].lockCode != LockTimedOut
    decreases |attempts|
  {
    if |attempts| == 0 || attempts[0].group.None? then None
    else if attempts[0].lockCode == LockTimedOut then RetryOutcome(attempts[1..])
    else attempts[0].group
  }

  /** How many leading passes found a group held elsewhere. */
  function Contended(attempts: seq<Attempt>): nat
    decreases |attempts|
  {
    if |attempts| == 0 || attempts[0].group.None? || attempts[0].lockCode != LockTimedOut then 0
    else 1 + Contended(attempts[1..])
  }

  /**
   * The batch skips exactly the contended prefix: every skipped pass found a
   * group whose lock timed out, and the result is the group of the pass after
   * them, if that pass found one.
   */
  lemma {:induction false} RetryOutcomeAfterContended(attempts: seq<Attempt>)
    ensures Contended(attempts) <= |attempts|
    ensures forall i :: 0 <= i < Contended(attempts) ==>
              attempts[i].group.Some? && attempts[i].lockCode == LockTimedOut
    ensures var k := Contended(attempts);
            RetryOutcome(attempts) == if k < |attempts| then attempts[k].group else None
    ensures var k := Contended(attempts);
            k < |attempts| && attempts[k].group.Some? ==> attempts[k].lockCode != LockTimedOut
    decreases |attempts|
  {
    if |attempts| > 0 && attempts[0].group.Some? && attempts[0].lockCode == LockTimedOut {
      RetryOutcomeAfterContended(attempts[1..]);
      forall i | 0 <= i < Contended(attempts)
        ensures attempts[i].group.Some? && attempts[i].lockCode == LockTimedOut
      {
        if i > 0 { assert attempts[i] == attempts[1..][i - 1]; }
      }
    }
  }

  /**
   * When every group the passes find is held elsewhere, no group is accepted:
   * each such pass is rolled back and the batch yields none.
   */
  lemma {:induction false} AlwaysContendedYieldsNothing(attempts: seq<Attempt>)
    requires forall i :: 0 <= i < |attempts| ==> attempts[i].group.Some? ==> attempts[i].lockCode == LockTimedOut
    ensures RetryOutcome(attempts) == None
    decreases |attempts|
  {
    if |attempts| > 0 && attempts[0].group.Some? {
      assert forall i :: 0 <= i < |attempts[1..]| ==> attempts[1..][i] == attempts[i + 1];
      AlwaysContendedYieldsNothing(attempts[1..]);
    }
  }

  /**
   * The open-mode T-SQL batch: save a transaction point, wait for a group, try
   * to lock it without waiting; on "held elsewhere" roll back to the save
   * point (releasing the group) and go round again. Returns the group and the
   * groups released on the way.
   */
  method RunGroupRetryBatch(attempts: seq<Attempt>) returns (group: Option<Guid>, released: seq<Guid>)
    ensures group == RetryOutcome(attempts)
    ensures |released| == Contended(attempts) <= |attempts|
    ensures forall i :: 0 <= i < |released| ==> attempts[i] == Attempt(Some(released[i]), LockTimedOut)
  {
    var i := 0;
    released := [];
    while i < |attempts|
      invariant 0 <= i <= |attempts|
      invariant |released| == i
      invariant forall j :: 0 <= j < i ==> attempts[j] == Attempt(Some(released[j]), LockTimedOut)
      invariant RetryOutcome(attempts) == RetryOutcome(attempts[i..])
      invariant Contended(attempts) == i + Contended(attempts[i..])
    {
      var a := attempts[i];
      if a.group.None? || a.lockCode != LockTimedOut {
        return a.group, released;
      }
      assert attempts[i..][1..] == attempts[i + 1..];
      released := released + [a.group.value];
      i := i + 1;
    }
    group := None;
  }

  /** What the targeted-mode lock batch yields: the cancel event, a SqlException, or sp_getapplock's code. */
  datatype LockOutcome = LockCancelled | LockFailed(number: int) | LockReturned(code: int)

  /** What the open-mode batch yields: the cancel event, a SqlException, or the passes it made. */
  datatype BatchOutcome = BatchCancelled | BatchFailed | BatchRan(attempts: seq<Attempt>)

  /** The error number of a RAISERROR with a message text. */
  const RaiserrorNumber: int := 50000

  /** sp_getapplock's success codes: granted at once (0) or after waiting (1). */
  predicate LockGranted(lock: LockOutcome) { lock.LockReturned? && (lock.code == 0 || lock.code == 1) }

  /**
   * The database and the other threads as one accept sees them: the timeout
   * and the deadline flag, the targeted-mode lock, the first RECEIVE and the
   * listener's state when that wait ends (a concurrent Close changes it), and
   * the open-mode batch.
   */
  datatype AcceptEnvironment = AcceptEnvironment(
    timeoutMs: int,
    remainingMs: int,
    timeRemaining: bool,
    lock: LockOutcome,
    firstFetch: FetchOutcome,
    stateAfterWait: CommunicationState,
    batch: BatchOutcome)

  class SsbChannelListener {
    var state: CommunicationState
    const listenUri: U.SsbUri
    const connectionString: Option<string>
    const bindingGroup: Option<Guid>
    const readMessage: MessageReader
    var serviceInfo: Option<SsbHelper.ServiceInfo>
    var cancelRequested: bool

    constructor (address: U.SsbUri, cs: Option<string>, group: Option<Guid>, reader: MessageReader)
      ensures state == Created && listenUri == address && connectionString == cs && bindingGroup == group
      ensures readMessage == reader && serviceInfo == None && !cancelRequested
    {
      state := Created;
      listenUri := address;
      connectionString := cs;
      bindingGroup := group;
      readMessage := reader;
      serviceInfo := None;
      cancelRequested := false;
    }

    /** The SsbChannelListener constructor: address checks, then the encoder the binding supplies or the default one. */
    static method Create(mode: ListenUriMode, baseAddress: Option<Uri>, relativeAddress: Option<string>,
                         combine: UriCombiner, cs: Option<string>, group: Option<Guid>,
                         encoderElement: Option<MessageReader>, defaultReader: MessageReader)
      returns (r: Result<SsbChannelListener>)
      ensures r.Ok? <==> CheckListenAddress(mode, baseAddress, relativeAddress, combine).Ok?
      ensures r.Err? ==> r.error == CheckListenAddress(mode, baseAddress, relativeAddress, combine).error
      ensures r.Ok? ==>
                fresh(r.value) && r.value.state == Created &&
                r.value.listenUri == CheckListenAddress(mode, baseAddress, relativeAddress, combine).value &&
                r.value.readMessage == (if encoderElement.Some? then encoderElement.value else defaultReader) &&
                r.value.connectionString == cs && r.value.bindingGroup == group && r.value.serviceInfo == None
    {
      var address := CheckListenAddress(mode, baseAddress, relativeAddress, combine);
      if address.Err? {
        return Err(address.error);
      }
      var reader := if encoderElement.Some? then encoderElement.value else defaultReader;
      var l := new SsbChannelListener(address.value, cs, group, reader);
      r := Ok(l);
    }

    /** OnOpen: looks up the listen address's service and its queue. */
    method OnOpen(query: SsbHelper.ServiceQuery, timeRemaining: bool) returns (r: Outcome)
      modifies this
      ensures state == old(state) && cancelRequested == old(cancelRequested)
      ensures var info := SsbHelper.GetServiceInfo(listenUri.Service(), query, timeRemaining);
              (r.Pass? <==> info.Ok?) &&
              (info.Ok? ==> serviceInfo == Some(info.value)) &&
              (info.Err? ==> r == Fail(info.error) && serviceInfo == old(serviceInfo))
    {
      var info := SsbHelper.GetServiceInfo(listenUri.Service(), query, timeRemaining);
      if info.Err? {
        return Fail(info.error);
      }
      serviceInfo := Some(info.value);
      r := Pass;
    }

    /** OnClose and OnAbort both only signal the cancel event, ending any pending wait. */
    method OnClose()
      modifies this
      ensures cancelRequested && state == old(state) && serviceInfo == old(serviceInfo)
    {
      cancelRequested := true;
    }

    method OnAbort()
      modifies this
      ensures cancelRequested && state == old(state) && serviceInfo == old(serviceInfo)
    {
      cancelRequested := true;
    }

    /**
     * AcceptConversationGroup(groupId, timeout), the targeted mode: open a
     * connection in a new transaction, lock the group (waiting), then wait for
     * its first message. A cancelled lock wait closes the connection and
     * yields null; a lock code other than 0 or 1 raises an error. No first
     * message is null once the listener has left the Opened state and a
     * timeout otherwise.
     */
    method AcceptTargeted(groupId: Guid, env: AcceptEnvironment, decode: ErrorDecoder, stats: Statistics)
      returns (r: Result<Option<SsbConversationGroupReceiver>>, ghost cn: Connection)
      requires stats.Valid()
      modifies stats
      ensures stats.Valid()
      ensures fresh(cn) && |cn.log| >= 1 && cn.log[0] == LockGroup(groupId)
      ensures env.lock == LockCancelled ==> r == Ok(None) && !cn.isOpen
      ensures env.lock.LockFailed? ==> r == Err(SqlError(env.lock.number))
      ensures env.lock.LockReturned? && !LockGranted(env.lock) ==> r == Err(SqlError(RaiserrorNumber))
      ensures LockGranted(env.lock) && serviceInfo.None? ==> r == Err(NullReferenceError)
      ensures LockGranted(env.lock) && serviceInfo.Some? ==>
                var d := BatchDelivery(env.firstFetch, groupId, decode);
                cn.log == [LockGroup(groupId), ReceiveBatch(serviceInfo.value.queueName, groupId, env.remainingMs)] &&
                (d.Err? ==> r == Err(d.error)) &&
                (d.Ok? && d.value.body.Some? ==> r.Ok? && r.value.Some?) &&
                (d.Ok? && d.value.body.None? && env.stateAfterWait != Opened ==> r == Ok(None) && !cn.isOpen) &&
                (d.Ok? && d.value.body.None? && env.stateAfterWait == Opened ==> r == Err(TimeoutError))
      ensures r.Ok? && r.value.Some? ==>
                var cg := r.value.value;
                fresh(cg) && cg.Valid() && cg.con == cn && cn.isOpen && !cn.disposed &&
                cg.groupId == groupId && cg.state == Opened && cg.queued.Some? &&
                cg.queued.value.conversation.ConversationGroupId == groupId &&
                cg.tx != null && fresh(cg.tx) && cg.tx.status == Active
    {
      var tx := new Transaction();
      var c := new Connection.Open();
      cn := c;
      c.Issue(LockGroup(groupId));
      match env.lock {
        case LockCancelled =>
          c.Close();
          return Ok(None), cn;
        case LockFailed(number) =>
          return Err(SqlError(number)), cn;
        case LockReturned(code) =>
          if code != 0 && code != 1 {
            return Err(SqlError(RaiserrorNumber)), cn;
          }
      }
      if serviceInfo.None? {
        return Err(NullReferenceError), cn;
      }
      var cg := new SsbConversationGroupReceiver(c, tx, groupId, serviceInfo.value.queueName);
      var openOutcome := cg.Open();
      var first := cg.WaitForFirstMessage(env.remainingMs, env.firstFetch, decode, stats);
      if first.Err? {
        return Err(first.error), cn;
      }
      if !first.value {
        if env.stateAfterWait != Opened {
          c.Close();
          return Ok(None), cn;
        }
        return Err(TimeoutError), cn;
      }
      r := Ok(Some(cg));
    }

    /**
     * AcceptConversationGroup(timeout), the open mode: open a connection in a
     * new transaction and run the retry batch. A cancelled wait closes the
     * connection and yields null; a batch that ends without a group is a
     * timeout; a SQL failure is a timeout after the deadline and a protocol
     * error before it. The receiver is handed back without being opened.
     * Without service information the connection is opened first and left
     * open when the batch text dereferences the missing queue name.
     */
    method AcceptOpen(env: AcceptEnvironment)
      returns (r: Result<Option<SsbConversationGroupReceiver>>, ghost cn: Connection?, ghost released: seq<Guid>)
      ensures cn != null && fresh(cn)
      ensures serviceInfo.None? ==> r == Err(NullReferenceError) && cn.isOpen && !cn.disposed && cn.log == []
      ensures serviceInfo.Some? ==> cn.log == [GroupRetryBatch(serviceInfo.value.queueName, env.timeoutMs)]
      ensures serviceInfo.Some? && env.batch.BatchCancelled? ==> r == Ok(None) && !cn.isOpen
      ensures serviceInfo.Some? && env.batch.BatchFailed? ==>
                r.Err? && (r.error == TimeoutError <==> !env.timeRemaining) && (env.timeRemaining ==> r.error.ProtocolError?)
      ensures serviceInfo.Some? && env.batch.BatchRan? ==>
                var group := RetryOutcome(env.batch.attempts);
                |released| == Contended(env.batch.attempts) <= |env.batch.attempts| &&
                (forall i :: 0 <= i < |released| ==> env.batch.attempts[i] == Attempt(Some(released[i]), LockTimedOut)) &&
                (group.None? ==> r == Err(TimeoutError)) &&
                (group.Some? ==> r.Ok? && r.value.Some? && r.value.value.groupId == group.value)
      ensures r.Ok? && r.value.Some? ==>
                var cg := r.value.value;
                serviceInfo.Some? && env.batch.BatchRan? && RetryOutcome(env.batch.attempts) == Some(cg.groupId) &&
                fresh(cg) && cg.Valid() && cg.con == cn && cn.isOpen && !cn.disposed &&
                cg.state == Created && cg.queued == None && cg.reader == None &&
                cg.queueName == serviceInfo.value.queueName &&
                cg.tx != null && fresh(cg.tx) && cg.tx.status == Active
    {
      released := [];
      var tx := new Transaction();
      var c := new Connection.Open();
      cn := c;
      if serviceInfo.None? {
        return Err(NullReferenceError), cn, released;
      }
      c.Issue(GroupRetryBatch(serviceInfo.value.queueName, env.timeoutMs));
      match env.batch {
        case BatchCancelled =>
          c.Close();
          return Ok(None), cn, released;
        case BatchFailed =>
          var f := if env.timeRemaining then ProtocolError("An error occurred while waiting for a Conversation Group")
                   else TimeoutError;
          return Err(f), cn, released;
        case BatchRan(attempts) =>
          var group, skipped := RunGroupRetryBatch(attempts);
          released := skipped;
          if group.None? {
            return Err(TimeoutError), cn, released;
          }
          var cg := new SsbConversationGroupReceiver(c, tx, group.value, serviceInfo.value.queueName);
          r := Ok(Some(cg));
      }
    }

    /**
     * OnAcceptChannel: nothing once the listener is closing or closed;
     * otherwise targeted mode exactly when the binding names a group, and a
     * channel over the accepted receiver addressed to the listen address.
     */
    method OnAcceptChannel(env: AcceptEnvironment, decode: ErrorDecoder, stats: Statistics)
      returns (r: Result<Option<SsbInputSessionChannel>>)
      requires stats.Valid()
      modifies stats
      ensures stats.Valid()
      ensures state == Closed || state == Closing ==> r == Ok(None) && unchanged(stats)
      ensures state != Closed && state != Closing && bindingGroup.Some? ==>
                (env.lock == LockCancelled ==> r == Ok(None)) &&
                (env.lock.LockFailed? ==> r == Err(SqlError(env.lock.number))) &&
                (env.lock.LockReturned? && !LockGranted(env.lock) ==> r == Err(SqlError(RaiserrorNumber))) &&
                (LockGranted(env.lock) && serviceInfo.None? ==> r == Err(NullReferenceError))
      ensures state != Closed && state != Closing && bindingGroup.Some? && LockGranted(env.lock) && serviceInfo.Some? ==>
                var d := BatchDelivery(env.firstFetch, bindingGroup.value, decode);
                (d.Err? ==> r == Err(d.error)) &&
                (d.Ok? && d.value.body.Some? ==> r.Ok? && r.value.Some?) &&
                (d.Ok? && d.value.body.None? && env.stateAfterWait != Opened ==> r == Ok(None)) &&
                (d.Ok? && d.value.body.None? && env.stateAfterWait == Opened ==> r == Err(TimeoutError))
      ensures state != Closed && state != Closing && bindingGroup.None? ==>
                (serviceInfo.None? ==> r == Err(NullReferenceError)) &&
                (serviceInfo.Some? && env.batch.BatchCancelled? ==> r == Ok(None)) &&
                (serviceInfo.Some? && env.batch.BatchFailed? ==>
                   r.Err? && (r.error == TimeoutError <==> !env.timeRemaining) &&
                   (env.timeRemaining ==> r.error.ProtocolError?)) &&
                (serviceInfo.Some? && env.batch.BatchRan? && RetryOutcome(env.batch.attempts).None? ==>
                   r == Err(TimeoutError)) &&
                (serviceInfo.Some? && env.batch.BatchRan? && RetryOutcome(env.batch.attempts).Some? ==>
                   r.Ok? && r.value.Some? && r.value.value.receiver.groupId == RetryOutcome(env.batch.attempts).value)
      ensures r.Ok? && r.value.Some? ==>
                var ch := r.value.value;
                fresh(ch) && fresh(ch.receiver) && ch.state == Created &&
                ch.listenAddress == listenUri.ToUri() && ch.readMessage == readMessage &&
                ch.receiver.Valid() && ch.receiver.tx != null && ch.receiver.tx.status == Active &&
                |ch.receiver.con.log| >= 1 &&
                (bindingGroup.Some? ==> ch.receiver.groupId == bindingGroup.value &&
                                        ch.receiver.con.log[0] == LockGroup(bindingGroup.value) &&
                                        ch.receiver.state == Opened && ch.receiver.queued.Some?) &&
                (bindingGroup.None? ==> serviceInfo.Some? && env.batch.BatchRan? &&
                                        RetryOutcome(env.batch.attempts) == Some(ch.receiver.groupId) &&
                                        ch.receiver.con.log[0] == GroupRetryBatch(serviceInfo.value.queueName, env.timeoutMs) &&
                                        ch.receiver.state == Created)
    {
      if state == Closed || state == Closing {
        return Ok(None);
      }
      var accepted: Result<Option<SsbConversationGroupReceiver>>;
      if bindingGroup.None? {
        ghost var cn, released;
        accepted, cn, released := AcceptOpen(env);
      } else {
        ghost var cn;
        accepted, cn := AcceptTargeted(bindingGroup.value, env, decode, stats);
      }
      if accepted.Err? {
        return Err(accepted.error);
      }
      if accepted.value.None? {
        return Ok(None);
      }
      var ch := new SsbInputSessionChannel(accepted.value.value, listenUri.ToUri(), readMessage);
      r := Ok(Some(ch));
    }
  }
}

=== FILE: messages.dfy ===
/**
 * The WCF message as the channels see it: the Action header, the To header,
 * the message properties the transport adds, and the encoded content. The
 * message encoder itself is not modelled: reading and writing are functions
 * supplied by the binding.
 */
module Messages {
  import opened Wrappers
  import opened Broker
  import opened Uris
  import opened SsbConversation

  datatype Message = Message(
    action: Option<string>,   // the Action header, which may be null
    to: Option<Uri>,
    properties: map<string, SsbConversationContext>,
    content: seq<byte>)

  /** MessageEncoder.ReadMessage over a received buffer. */
  type MessageReader = seq<byte> -> Message

  /** MessageEncoder.WriteMessage: the encoded bytes of a message. */
  type MessageWriter = Message -> seq<byte>

  /** A message encoder as a binding element supplies it: its reader and its writer. */
  datatype MessageEncoder = MessageEncoder(read: MessageReader, write: MessageWriter)
}

=== FILE: output_channel.dfy ===
/**
 * SsbOutputSessionChannel.cs: the client channel. It encodes each message,
 * copies the encoded bytes into an array of exactly their length and hands it
 * to its conversation sender; opening, closing and aborting the channel do
 * the same to the sender.
 */
module OutputChannel {
  import opened Wrappers
  import opened Errors
  import opened Broker
  import opened Communication
  import opened Uris
  import opened SsbConstants
  import U = SsbUri
  import opened Instrumentation
  import opened Messages
  import SsbHelper
  import opened Sender

  /** The BufferManager the encoder takes its buffers from: what matters here is which buffers went back. */
  class BufferPool {
    var returned: seq<array<byte>>

    constructor ()
      ensures returned == []
    {
      returned := [];
    }

    method ReturnBuffer(buffer: array<byte>)
      modifies this
      ensures returned == old(returned) + [buffer]
    {
      returned := returned + [buffer];
    }
  }

  /**
   * The constructor's argument checks, in their order. The base ChannelBase
   * constructor runs first and refuses a null factory under its own parameter
   * name, channelManager, so the constructor's own check of the factory is
   * never the one that fails.
   */
  function CheckChannelArguments(via: Option<Uri>, hasFactory: bool, hasEncoder: bool, hasBufferManager: bool,
                                 connectionString: Option<string>): (r: Outcome)
    ensures r.Pass? <==> via.Some? && hasFactory && hasEncoder && hasBufferManager &&
                         connectionString.Some? && connectionString.value != ""
    ensures !hasFactory ==> r == Fail(ArgumentNullError("channelManager"))
    ensures hasFactory && via.None? ==> r == Fail(ArgumentNullError("via"))
    ensures hasFactory && via.Some? && !hasEncoder ==> r == Fail(ArgumentNullError("encoder"))
    ensures hasFactory && via.Some? && hasEncoder && !hasBufferManager ==> r == Fail(ArgumentNullError("bufferManager"))
    ensures hasFactory && via.Some? && hasEncoder && hasBufferManager &&
            (connectionString.None? || connectionString.value == "") ==>
              r == Fail(ArgumentNullError("connectionString"))
  {
    if !hasFactory then Fail(ArgumentNullError("channelManager"))
    else if via.None? then Fail(ArgumentNullError("via"))
    else if !hasEncoder then Fail(ArgumentNullError("encoder"))
    else if !hasBufferManager then Fail(ArgumentNullError("bufferManager"))
    else if connectionString.None? || connectionString.value == "" then Fail(ArgumentNullError("connectionString"))
    else Pass
  }

  /** Once the channel's own checks pass, the sender's can only refuse the address. */
  lemma SenderChecksAfterChannelChecks(via: Option<Uri>, encoder: bool, bufferManager: bool, cs: Option<string>)
    requires CheckChannelArguments(via, true, encoder, bufferManager, cs).Pass?
    ensures CheckSenderArguments(cs, via, true) == U.Parse(via.value)
  {
  }

  /** EndpointAddress.ApplyTo: the To header of an outgoing message is the channel's remote address, when it has one. */
  function Addressed(message: Message, to: Option<Uri>): (r: Message)
    ensures to.Some? ==> r.to == to
    ensures to.None? ==> r == message
    ensures r == message.(to := r.to)
  {
    if to.Some? then message.(to := to) else message
  }

  /** Buffer.BlockCopy of an encoded segment into a new array of exactly its length. */
  method CopySegment(segment: array<byte>, offset: nat, count: nat) returns (buffer: array<byte>)
    requires offset + count <= segment.Length
    ensures buffer.Length == count
    ensures buffer[..] == segment[offset..offset + count]
  {
    buffer := new byte[count];
    var i := 0;
    while i < count
      invariant 0 <= i <= count
      invariant buffer[..i] == segment[offset..offset + i]
    {
      buffer[i] := segment[offset + i];
      i := i + 1;
    }
  }

  datatype PropertyKind = ConversationSenderProperty | OtherProperty(name: string)

  class SsbOutputSessionChannel {
    var state: CommunicationState
    const sender: SsbConversationSender
    const via: Uri
    const to: Option<Uri>
    const bufferManager: BufferPool
    const encoder: MessageWriter
    const connectionString: string
    const contract: string
    const useEncryption: bool
    const useActionForSsbMessageType: bool

    constructor (s: SsbConversationSender, address: Uri, remote: Option<Uri>, pool: BufferPool, writer: MessageWriter,
                 cs: string, contractName: string, encrypt: bool, useAction: bool)
      ensures state == Created && sender == s && via == address && to == remote && bufferManager == pool
      ensures encoder == writer && connectionString == cs && contract == contractName
      ensures useEncryption == encrypt && useActionForSsbMessageType == useAction
    {
      state := Created;
      sender := s;
      via := address;
      to := remote;
      bufferManager := pool;
      encoder := writer;
      connectionString := cs;
      contract := contractName;
      useEncryption := encrypt;
      useActionForSsbMessageType := useAction;
    }

    /** The public constructor: its own argument checks, then a new sender over the same settings. */
    static method Create(hasFactory: bool, cs: Option<string>, via: Option<Uri>, remote: Option<Uri>,
                         pool: BufferPool?, writer: Option<MessageWriter>, endOnClose: bool,
                         contractName: string, encrypt: bool, useAction: bool)
      returns (r: Result<SsbOutputSessionChannel>)
      ensures r.Ok? <==> CheckChannelArguments(via, hasFactory, writer.Some?, pool != null, cs).Pass? &&
                         U.Parse(via.value).Ok?
      ensures CheckChannelArguments(via, hasFactory, writer.Some?, pool != null, cs).Fail? ==>
                r == Err(CheckChannelArguments(via, hasFactory, writer.Some?, pool != null, cs).error)
      ensures r.Ok? ==>
                var ch := r.value;
                fresh(ch) && fresh(ch.sender) && ch.state == Created && ch.sender.Valid() &&
                ch.sender.state == Created && ch.sender.con == null && ch.sender.ownsConnection &&
                ch.sender.conversation == None && ch.sender.endConversationOnClose == endOnClose &&
                ch.sender.source == U.Parse(via.value).value.Client() &&
                ch.sender.target == U.Parse(via.value).value.Service() &&
                ch.via == via.value && ch.to == remote && ch.bufferManager == pool && ch.encoder == writer.value &&
                Some(ch.connectionString) == cs && ch.contract == contractName &&
                ch.useEncryption == encrypt && ch.useActionForSsbMessageType == useAction
    {
      var checked := CheckChannelArguments(via, hasFactory, writer.Some?, pool != null, cs);
      if checked.Fail? {
        return Err(checked.error);
      }
      var s := SsbConversationSender.Create(cs, via, hasFactory, endOnClose, contractName, encrypt);
      if s.Err? {
        return Err(s.error);
      }
      var ch := new SsbOutputSessionChannel(s.value, via.value, remote, pool, writer.value, cs.value, contractName,
                                            encrypt, useAction);
      r := Ok(ch);
    }

    /**
     * The SSB message type of an outgoing message: DEFAULT, or its Action
     * header when the binding says so, which is null when the message has no
     * Action.
     */
    function MessageTypeOf(message: Message): (messageType: Option<string>)
      reads this
      ensures useActionForSsbMessageType ==> messageType == message.action
      ensures !useActionForSsbMessageType ==> messageType == Some(DefaultMessageType) && Sendable(messageType)
    {
      if useActionForSsbMessageType then message.action else Some(DefaultMessageType)
    }

    /**
     * Send: the channel must be open; the message, addressed to the remote
     * endpoint, is encoded into a pooled segment, copied out at its exact
     * length and sent; the pooled buffer goes back only when the send succeeded.
     * The encoder is modelled by its result: the segment holds the encoding.
     */
    method Send(message: Message, segment: array<byte>, offset: nat, count: nat, timeRemaining: bool,
                dialog: DialogOutcome, catalog: SsbHelper.Catalog, outcome: SendOutcome, stats: Statistics)
      returns (r: Outcome)
      requires sender.Valid() && stats.Valid()
      requires offset + count <= segment.Length
      requires segment[offset..offset + count] == encoder(Addressed(message, to))
      modifies sender, sender.con, stats, bufferManager
      ensures sender.Valid() && stats.Valid()
      ensures sender.state == old(sender.state) && sender.con == old(sender.con)
      ensures state != Opened ==>
                r == Fail(NotOpenError) && unchanged(sender, stats, bufferManager) &&
                (sender.con != null ==> unchanged(sender.con))
      ensures state == Opened && old(sender.state) == Opened && old(sender.conversation).Some? ==>
                sender.con.log == old(sender.con.log) +
                                  SendCommands(old(sender.conversation).value.conversationHandle, MessageTypeOf(message),
                                               sender.con.isOpen, encoder(Addressed(message, to))) &&
                sender.conversation == old(sender.conversation) &&
                sender.endConversationOnClose == old(sender.endConversationOnClose) &&
                r == SendResult(MessageTypeOf(message), sender.con.isOpen, outcome, timeRemaining)
      ensures state == Opened && old(sender.state) != Opened ==>
                r == Fail(NotOpenError) && unchanged(sender, stats) && (sender.con != null ==> unchanged(sender.con))
      ensures r.Pass? ==>
                stats.bytesSent == Add32(old(stats.bytesSent), count) &&
                stats.messagesSent == Add32(old(stats.messagesSent), 1) &&
                stats.bytesReceived == old(stats.bytesReceived) && stats.messagesReceived == old(stats.messagesReceived)
      ensures r.Fail? ==> unchanged(stats)
      ensures state == Opened && old(sender.state) == Opened && old(sender.conversation).None? && !sender.con.isOpen ==>
                r == Fail(InvalidOperationError(ConnectionNotOpenMessage)) && sender.conversation == None &&
                sender.con.log == old(sender.con.log)
      ensures state == Opened && old(sender.state) == Opened && old(sender.conversation).None? && sender.con.isOpen ==>
                var begin := BeginDialog(sender.source, sender.target, sender.contract, sender.useEncryption, None);
                (dialog.DialogFailed? ==>
                   r == Fail(BackendFailure(timeRemaining, None)) && sender.conversation == None &&
                   sender.con.log == old(sender.con.log) + [begin]) &&
                (dialog.DialogBegun? ==>
                   var info := SsbHelper.GetConversationInfo(dialog.handle, catalog);
                   (info.Err? ==> r == Fail(info.error) && sender.conversation == None &&
                                  sender.con.log == old(sender.con.log) + [begin]) &&
                   (info.Ok? ==> sender.conversation == Some(info.value) && sender.endConversationOnClose &&
                                 sender.con.log == old(sender.con.log) + [begin] +
                                   SendCommands(dialog.handle, MessageTypeOf(message), true, encoder(Addressed(message, to))) &&
                                 r == SendResult(MessageTypeOf(message), true, outcome, timeRemaining)))
      ensures state == Opened ==> bufferManager.returned == old(bufferManager.returned) + (if r.Pass? then [segment] else [])
    {
      r := RequireOpen(state);
      if r.Fail? {
        return;
      }
      var messageType := MessageTypeOf(message);
      var buffer := CopySegment(segment, offset, count);
      r := sender.Send(buffer[..], messageType, timeRemaining, dialog, catalog, outcome, stats);
      if r.Pass? {
        bufferManager.ReturnBuffer(segment);
      }
    }

    /** Open: the sender is opened with the channel; a sender that fails to open leaves the channel faulted. */
    method Open() returns (r: Outcome)
      requires sender.Valid()
      modifies this, sender
      ensures sender.Valid()
      ensures old(state) != Created ==> r == OpenAllowed(old(state)) && state == old(state) && unchanged(sender)
      ensures old(state) == Created ==> (r.Pass? <==> state == Opened) && (r.Fail? ==> state == Faulted)
      ensures old(state) == Created && old(sender.state) != Created ==> r == OpenAllowed(old(sender.state))
      ensures r.Pass? ==> sender.state == Opened && sender.con != null
    {
      r := OpenAllowed(state);
      if r.Fail? {
        return;
      }
      state := Opening;
      r := sender.Open();
      state := if r.Pass? then Opened else Faulted;
    }

    /**
     * Close: the sender is closed with the channel (OnClose), or aborted when
     * the channel never opened or its close failed (OnAbort); a connection
     * the sender does not own is never disposed.
     */
    method Close(outcome: Exec, timeRemaining: bool) returns (r: Outcome)
      requires sender.Valid()
      modifies this, sender, sender.con
      ensures sender.Valid() && sender.con == old(sender.con)
      ensures old(CloseAction(state)) == NoShutdown ==> r == Pass && state == old(state) && unchanged(sender)
      ensures old(CloseAction(state)) != NoShutdown ==> state == Closed
      ensures (old(CloseAction(state)) != NoShutdown && old(CloseAction(sender.state)) != NoShutdown &&
               sender.con != null && sender.ownsConnection) ==> sender.con.disposed
      ensures sender.con != null && !sender.ownsConnection ==> sender.con.disposed == old(sender.con.disposed)
      ensures old(CloseAction(state)) != NoShutdown && old(sender.state) != Closing ==> sender.state == Closed
      ensures old(CloseAction(state)) == RunOnClose && old(sender.state) == Opened &&
              old(sender.endConversationOnClose && sender.conversation.Some? && sender.con.isOpen) ==>
                sender.con.log == old(sender.con.log) +
                                  [Command.EndConversation(old(sender.conversation).value.conversationHandle)] &&
                (r.Pass? <==> outcome.Done?)
      ensures old(CloseAction(state)) == RunOnClose && old(sender.state) == Opened &&
              old(sender.endConversationOnClose && sender.conversation.Some? && !sender.con.isOpen) ==>
                r == Fail(InvalidOperationError(ConnectionNotOpenMessage)) && sender.con.log == old(sender.con.log)
      ensures old(CloseAction(state)) == RunOnClose &&
              !(old(sender.state) == Opened && old(sender.endConversationOnClose && sender.conversation.Some?)) ==>
                r == Pass && (sender.con != null ==> sender.con.log == old(sender.con.log))
      ensures old(CloseAction(state)) == RunOnAbort ==> r == Pass && (sender.con != null ==> sender.con.log == old(sender.con.log))
    {
      r := Pass;
      var action := CloseAction(state);
      if action == RunOnClose {
        state := Closing;
        r := sender.Close(outcome, timeRemaining);
        if r.Fail? {
          sender.Abort();
        }
        state := Closed;
      } else if action == RunOnAbort {
        state := Closing;
        sender.Abort();
        state := Closed;
      }
    }

    /** Abort: the sender is aborted with the channel. */
    method Abort()
      requires sender.Valid()
      modifies this, sender, sender.con
      ensures sender.Valid() && sender.con == old(sender.con)
      ensures old(state) == Closed ==> state == Closed && unchanged(sender)
      ensures old(state) != Closed ==> state == Closed
      ensures old(state) != Closed && old(sender.state) != Closed && sender.con != null && sender.ownsConnection ==>
                sender.con.disposed
      ensures sender.con != null && !sender.ownsConnection ==> unchanged(sender.con)
      ensures old(state) != Closed ==> sender.state == Closed
      ensures sender.con != null ==> sender.con.log == old(sender.con.log)
    {
      if AbortAction(state) == RunOnAbort {
        state := Closing;
        sender.Abort();
        state := Closed;
      }
    }

    /** GetProperty: the conversation sender is exposed to callers that ask for it. */
    function GetProperty(kind: PropertyKind): (r: Option<SsbConversationSender>)
      ensures r.Some? <==> kind == ConversationSenderProperty
      ensures r.Some? ==> r.value == sender
    {
      if kind == ConversationSenderProperty then Some(sender) else None
    }
  }

  /**
   * The message type a channel sends under: DEFAULT unless the binding asks
   * for the Action header. DEFAULT is a valid identifier, so with the default
   * setting a message on an open connection is always handed to the broker,
   * and the outcome of the SEND alone decides the result; a message without
   * an Action under the Action setting is never sent.
   */
  lemma MessageTypeChoice(ch: SsbOutputSessionChannel, message: Message, connectionOpen: bool, outcome: SendOutcome,
                          timeRemaining: bool)
    ensures ch.useActionForSsbMessageType ==> ch.MessageTypeOf(message) == message.action
    ensures ch.useActionForSsbMessageType && message.action.None? ==>
              SendResult(ch.MessageTypeOf(message), connectionOpen, outcome, timeRemaining) ==
                Fail(BackendFailure(timeRemaining, None))
    ensures !ch.useActionForSsbMessageType ==>
              ch.MessageTypeOf(message) == Some(DefaultMessageType) &&
              (SendResult(ch.MessageTypeOf(message), true, outcome, timeRemaining).Pass? <==> outcome.Sent?)
  {
  }
}

=== FILE: receiver.dfy ===
/**
 * SsbConversationGroupReceiver.cs: the object that owns one locked
 * conversation group. It holds the connection and the transaction that keep
 * the group locked, the data reader over the current RECEIVE batch, and at
 * most one message queued by WaitForFirstMessage. Receive hands out the rows
 * of the current batch one at a time and issues a new RECEIVE only when the
 * batch is used up.
 */
module Receiver {
  import opened Wrappers
  import opened Errors
  import opened Broker
  import opened Communication
  import opened SsbConstants
  import opened SsbConversation
  import opened Instrumentation
  import SsbHelper

  /** The SqlDataReader over a RECEIVE batch: its rows, how many Read has consumed, and whether it was closed. */
  datatype Reader = Reader(rows: seq<Row>, position: nat, closed: bool)

  /**
   * What Receive hands back: the body (null for end-dialog and timer messages,
   * and when nothing arrived), its length, and the conversation (null when
   * nothing arrived).
   */
  datatype Delivery = Delivery(body: Option<seq<byte>>, length: int, conversation: Option<SsbConversationContext>)

  const NoMessage: Delivery := Delivery(None, 0, None)

  /** The message WaitForFirstMessage keeps for the next Receive. */
  datatype ReceivedMessage = ReceivedMessage(length: int, conversation: SsbConversationContext, body: seq<byte>)

  /** Reads the error code and description out of a broker error message body; None when the XML is not of that shape. */
  type ErrorDecoder = seq<byte> -> Option<(int, string)>

  /** Broker control messages that carry no body the transport reads. */
  predicate IsControlMessage(messageType: string) {
    messageType == SsbEndDialogMessage || messageType == SsbDialogTimerMessage
  }

  /**
   * What one received row becomes: a body of exactly the stored length for
   * ordinary messages, no body for end-dialog and timer messages, an exception
   * carrying the broker's code and description for error messages, and a
   * general exception when the stream yields fewer bytes than the column reports.
   * The context always names the receiver's group.
   */
  function Classify(row: Row, groupId: Guid, decode: ErrorDecoder): (r: Result<Delivery>)
    ensures r.Ok? <==> row.messageTypeName != SsbErrorMessage &&
                       (IsControlMessage(row.messageTypeName) || row.storedLength <= |row.body|)
    ensures r.Ok? ==>
              r.value.conversation == Some(SsbConversationContext(row.conversationHandle, groupId, row.sequence, row.messageTypeName))
    ensures r.Ok? && IsControlMessage(row.messageTypeName) ==> r.value.body == None && r.value.length == 0
    ensures r.Ok? && !IsControlMessage(row.messageTypeName) ==>
              r.value.body == Some(row.body[..row.storedLength]) && r.value.length == row.storedLength
    ensures !IsControlMessage(row.messageTypeName) && row.storedLength > |row.body| ==> r.Err? && r.error.GeneralError?
    ensures r.Err? ==> r.error.GeneralError? || r.error.BrokerErrorMessage? || r.error == MalformedErrorPayload
    ensures row.messageTypeName == SsbErrorMessage && row.storedLength <= |row.body| ==>
              var payload := decode(row.body[..row.storedLength]);
              r.Err? && (payload.Some? <==> r.error.BrokerErrorMessage?) &&
              (payload.Some? ==> r.error == BrokerErrorMessage(payload.value.0, payload.value.1))
  {
    var messageType := row.messageTypeName;
    var length := if IsControlMessage(messageType) then 0 else row.storedLength;
    if !IsControlMessage(messageType) && row.storedLength > |row.body| then
      Err(GeneralError("Failed to read all the message bytes"))
    else
      var body := if IsControlMessage(messageType) then None else Some(row.body[..length]);
      var conversation := SsbConversationContext(row.conversationHandle, groupId, row.sequence, messageType);
      if messageType == SsbErrorMessage then
        match decode(body.GetOr([]))
        case Some(e) => Err(BrokerErrorMessage(e.0, e.1))
        case None => Err(MalformedErrorPayload)
      else
        Ok(Delivery(body, length, Some(conversation)))
  }

  /** An end-dialog row is handed up as a context with no body, never as an error. */
  lemma EndDialogHasNoBody(row: Row, groupId: Guid, decode: ErrorDecoder)
    requires row.messageTypeName == SsbEndDialogMessage
    ensures Classify(row, groupId, decode) ==
              Ok(Delivery(None, 0, Some(SsbConversationContext(row.conversationHandle, groupId, row.sequence, SsbEndDialogMessage))))
  {
  }

  /**
   * What Receive yields when it has to fetch a new batch: no message for a
   * cancelled wait or an empty batch, a CommunicationException for a SQL
   * failure, and otherwise the first row of the batch.
   */
  function BatchDelivery(fetch: FetchOutcome, groupId: Guid, decode: ErrorDecoder): (r: Result<Delivery>)
    ensures r.Ok? && r.value.conversation.None? <==> fetch.FetchCancelled? || fetch == Fetched([])
    ensures fetch.FetchFailed? <==> r == Err(CommunicationError(None))
    ensures fetch.Fetched? && fetch.rows != [] ==> r == Classify(fetch.rows[0], groupId, decode)
  {
    match fetch
    case FetchCancelled => Ok(NoMessage)
    case FetchFailed => Err(CommunicationError(None))
    case Fetched(rows) => if rows == [] then Ok(NoMessage) else Classify(rows[0], groupId, decode)
  }

  class SsbConversationGroupReceiver {
    var state: CommunicationState
    const con: Connection
    var tx: Transaction?
    const groupId: Guid
    const queueName: string
    var reader: Option<Reader>
    var queued: Option<ReceivedMessage>

    /** A reader exists only over a non-empty batch whose first row has been read. */
    predicate Valid()
      reads this
    {
      reader.Some? ==> 1 <= reader.value.position <= |reader.value.rows|
    }

    /** Receive's next Read yields a row of the current batch. */
    predicate HasNextRow()
      reads this
    {
      reader.Some? && !reader.value.closed && reader.value.position < |reader.value.rows|
    }

    /** Receive must fetch a new batch: there is no reader, or the open one is used up. */
    predicate NeedsBatch()
      reads this
    {
      reader.None? || (!reader.value.closed && reader.value.position >= |reader.value.rows|)
    }

    constructor (cn: Connection, transaction: Transaction?, cgId: Guid, queue: string)
      ensures Valid()
      ensures state == Created && con == cn && tx == transaction && groupId == cgId && queueName == queue
      ensures reader == None && queued == None
    {
      state := Created;
      con := cn;
      tx := transaction;
      groupId := cgId;
      queueName := queue;
      reader := None;
      queued := None;
    }

    /**
     * Receive. A queued message is handed out once (a null buffer manager fails
     * after the queue is emptied). Otherwise the next row of the current batch
     * is read; when there is none, a RECEIVE on the group is issued: a
     * cancelled wait or an empty batch return no message and reset the reader,
     * a SQL failure becomes a CommunicationException. Every row handed out
     * successfully is counted.
     */
    method Receive(timeoutMs: int, pooled: bool, fetch: FetchOutcome, decode: ErrorDecoder, stats: Statistics)
      returns (r: Result<Delivery>)
      requires Valid() && stats.Valid()
      modifies this, con, stats
      ensures Valid() && stats.Valid()
      ensures state == old(state) && tx == old(tx)
      ensures con.isOpen == old(con.isOpen) && con.disposed == old(con.disposed)
      ensures old(state) != Opened ==> r == Err(NotOpenError) && unchanged(this, con, stats)
      ensures old(state) == Opened ==> queued == None
      ensures old(state) == Opened && old(queued).Some? ==>
                reader == old(reader) && con.log == old(con.log) && unchanged(stats) &&
                r == (if pooled
                      then Ok(Delivery(Some(old(queued).value.body), old(queued).value.length, Some(old(queued).value.conversation)))
                      else Err(NullReferenceError))
      ensures old(state) == Opened && old(queued).None? && old(reader).Some? && old(reader).value.closed ==>
                r.Err? && r.error.InvalidOperationError? && reader == old(reader) && con.log == old(con.log) && unchanged(stats)
      ensures old(state) == Opened && old(queued).None? && old(HasNextRow()) ==>
                con.log == old(con.log) &&
                reader == Some(old(reader).value.(position := old(reader).value.position + 1)) &&
                r == Classify(old(reader).value.rows[old(reader).value.position], groupId, decode)
      ensures old(state) == Opened && old(queued).None? && old(NeedsBatch()) ==>
                con.log == old(con.log) + [ReceiveBatch(queueName, groupId, timeoutMs)] &&
                r == BatchDelivery(fetch, groupId, decode) &&
                match fetch
                case FetchCancelled => reader == None
                case FetchFailed => reader == (if old(reader).Some? then Some(old(reader).value.(closed := true)) else None)
                case Fetched(rows) => reader == (if rows == [] then None else Some(Reader(rows, 1, false)))
      ensures old(state) == Opened && old(queued).None? && r.Ok? && r.value.conversation.Some? ==>
                stats.bytesReceived == Add32(old(stats.bytesReceived), r.value.length) &&
                stats.messagesReceived == Add32(old(stats.messagesReceived), 1) &&
                stats.bytesSent == old(stats.bytesSent) && stats.messagesSent == old(stats.messagesSent)
      ensures r.Err? || r.value.conversation.None? || old(queued).Some? ==> unchanged(stats)
      ensures r.Err? ==> !r.error.TimeoutError?
    {
      if state != Opened {
        return Err(NotOpenError);
      }
      if queued.Some? {
        var q := queued.value;
        queued := None;
        if !pooled {
          return Err(NullReferenceError);
        }
        return Ok(Delivery(Some(q.body), q.length, Some(q.conversation)));
      }
      if reader.Some? && reader.value.closed {
        return Err(InvalidOperationError("Invalid attempt to call Read when reader is closed"));
      }
      var row: Row;
      if HasNextRow() {
        row := reader.value.rows[reader.value.position];
        reader := Some(reader.value.(position := reader.value.position + 1));
      } else {
        if reader.Some? {
          reader := Some(reader.value.(closed := true));
        }
        con.Issue(ReceiveBatch(queueName, groupId, timeoutMs));
        match fetch {
          case FetchCancelled =>
            reader := None;
            return Ok(NoMessage);
          case FetchFailed =>
            return Err(CommunicationError(None));
          case Fetched(rows) =>
            if |rows| == 0 {
              reader := None;
              return Ok(NoMessage);
            }
            row := rows[0];
            reader := Some(Reader(rows, 1, false));
        }
      }
      r := Classify(row, groupId, decode);
      if r.Ok? {
        stats.MessageReceived(r.value.length);
      }
    }

    /**
     * WaitForFirstMessage (targeted mode): receives with the caller's timeout and
     * keeps a message that has a body for the next Receive. A message without a
     * body (end-dialog, timer) or no message at all is reported as false.
     */
    method WaitForFirstMessage(timeoutMs: int, fetch: FetchOutcome, decode: ErrorDecoder, stats: Statistics)
      returns (r: Result<bool>)
      requires Valid() && stats.Valid()
      modifies this, con, stats
      ensures Valid() && stats.Valid()
      ensures state == old(state) && tx == old(tx)
      ensures con.isOpen == old(con.isOpen) && con.disposed == old(con.disposed)
      ensures old(state) != Opened ==> r == Err(NotOpenError)
      ensures old(state) == Opened && old(queued).Some? ==>
                r.Err? && r.error.InvalidOperationError? && unchanged(this, con, stats)
      ensures r == Ok(false) ==> queued == None
      ensures r == Ok(true) ==> queued.Some? && queued.value.conversation.ConversationGroupId == groupId
      ensures old(state) == Opened && old(queued).None? && old(reader).None? ==>
                con.log == old(con.log) + [ReceiveBatch(queueName, groupId, timeoutMs)] &&
                var d := BatchDelivery(fetch, groupId, decode);
                (d.Err? ==> r == Err(d.error)) &&
                (d.Ok? ==> r == Ok(d.value.body.Some?)) &&
                (d.Ok? && d.value.body.Some? ==>
                   queued == Some(ReceivedMessage(d.value.length, d.value.conversation.value, d.value.body.value)))
    {
      if state != Opened {
        return Err(NotOpenError);
      }
      if queued.Some? {
        return Err(InvalidOperationError("There is already a queued result"));
      }
      var d := Receive(timeoutMs, false, fetch, decode, stats);
      if d.Err? {
        return Err(d.error);
      }
      if d.value.body.None? {
        return Ok(false);
      }
      queued := Some(ReceivedMessage(d.value.length, d.value.conversation.value, d.value.body.value));
      r := Ok(true);
    }

    /** EndConversation(handle, timeout): END CONVERSATION; a SQL failure is a timeout once the deadline has passed. */
    method EndConversation(handle: Guid, outcome: Exec, timeRemaining: bool) returns (r: Outcome)
      modifies con
      ensures con.isOpen == old(con.isOpen) && con.disposed == old(con.disposed)
      ensures state != Opened ==> r == Fail(NotOpenError) && con.log == old(con.log)
      ensures state == Opened ==> con.log == old(con.log) + [Command.EndConversation(handle)]
      ensures state == Opened ==> (r.Pass? <==> outcome.Done?)
      ensures state == Opened && outcome.SqlFailed? ==> r == Fail(BackendFailure(timeRemaining, None))
    {
      if state != Opened {
        return Fail(NotOpenError);
      }
      con.Issue(Command.EndConversation(handle));
      r := if outcome.Done? then Pass else Fail(BackendFailure(timeRemaining, None));
    }

    /** EndConversationWithError: END CONVERSATION WITH ERROR on the current message's conversation; a SQL failure is a CommunicationException. */
    method EndConversationWithError(handle: Guid, errorCode: int, errorDescription: string, outcome: Exec)
      returns (r: Outcome)
      modifies con
      ensures con.isOpen == old(con.isOpen) && con.disposed == old(con.disposed)
      ensures state != Opened ==> r == Fail(NotOpenError) && con.log == old(con.log)
      ensures state == Opened ==>
                con.log == old(con.log) + [Command.EndConversationWithError(handle, errorCode, errorDescription)] &&
                (r.Pass? <==> outcome.Done?) &&
                (outcome.SqlFailed? ==> r == Fail(CommunicationError(None)))
    {
      if state != Opened {
        return Fail(NotOpenError);
      }
      con.Issue(Command.EndConversationWithError(handle, errorCode, errorDescription));
      r := if outcome.Done? then Pass else Fail(CommunicationError(None));
    }

    /**
     * SetConversationTimer: delegates to the helper over the receiver's
     * connection, without a state check, so after Close the disposed
     * connection refuses the command.
     */
    method SetConversationTimer(handle: Guid, totalSeconds: int, outcome: Exec) returns (r: Outcome)
      modifies con
      ensures con.isOpen == old(con.isOpen) && con.disposed == old(con.disposed)
      ensures !con.isOpen ==> r == Fail(InvalidOperationError(ConnectionNotOpenMessage)) && con.log == old(con.log)
      ensures con.isOpen ==> con.log == old(con.log) + [BeginConversationTimer(handle, SsbHelper.TimerSeconds(totalSeconds))]
      ensures r.Pass? <==> con.isOpen && outcome.Done?
    {
      r := SsbHelper.SetConversationTimer(handle, totalSeconds, con, outcome);
    }

    /** TakeTransaction: hands the transaction to the caller; the receiver no longer commits or rolls it back. */
    method TakeTransaction() returns (t: Transaction?)
      modifies this
      ensures t == old(tx) && tx == null
      ensures state == old(state) && reader == old(reader) && queued == old(queued)
    {
      t := tx;
      tx := null;
    }

    /** OnClose: disposes the reader, commits the transaction if it is still active, disposes the connection. */
    method OnClose()
      modifies this, con, tx
      ensures state == old(state) && queued == old(queued) && tx == old(tx)
      ensures reader == if old(reader).Some? then Some(old(reader).value.(closed := true)) else None
      ensures tx != null ==> tx.status == (if old(tx.status) == Active then Committed else old(tx.status))
      ensures con.disposed && !con.isOpen && con.log == old(con.log)
    {
      if reader.Some? {
        reader := Some(reader.value.(closed := true));
      }
      if tx != null && tx.status == Active {
        tx.Commit();
      }
      con.Dispose();
    }

    /** OnAbort: disposes the reader, rolls the transaction back, disposes the connection. */
    method OnAbort()
      modifies this, con, tx
      ensures state == old(state) && queued == old(queued) && tx == old(tx)
      ensures reader == if old(reader).Some? then Some(old(reader).value.(closed := true)) else None
      ensures tx != null ==> tx.status == (if old(tx.status) == Active then Aborted else old(tx.status))
      ensures con.disposed && !con.isOpen && con.log == old(con.log)
    {
      if reader.Some? {
        reader := Some(reader.value.(closed := true));
      }
      if tx != null {
        tx.Rollback();
      }
      con.Dispose();
    }

    /** Open: OnOpen does nothing, so opening only moves the state. */
    method Open() returns (r: Outcome)
      modifies this
      ensures r == OpenAllowed(old(state))
      ensures state == (if r.Pass? then Opened else old(state))
      ensures reader == old(reader) && queued == old(queued) && tx == old(tx)
    {
      r := OpenAllowed(state);
      if r.Pass? {
        state := Opened;
      }
    }

    /** Close: commits through OnClose when open, aborts from other unfinished states, does nothing once closed. */
    method Close()
      requires Valid()
      modifies this, con, tx
      ensures Valid()
      ensures old(CloseAction(state)) == NoShutdown ==> unchanged(this, con) && (tx != null ==> unchanged(tx))
      ensures old(CloseAction(state)) != NoShutdown ==> state == Closed && con.disposed
      ensures tx == old(tx)
      ensures old(CloseAction(state)) == RunOnClose && tx != null ==> tx.status == (if old(tx.status) == Active then Committed else old(tx.status))
      ensures old(CloseAction(state)) == RunOnAbort && tx != null ==> tx.status == (if old(tx.status) == Active then Aborted else old(tx.status))
    {
      var action := CloseAction(state);
      if action == RunOnClose {
        state := Closing;
        OnClose();
        state := Closed;
      } else if action == RunOnAbort {
        state := Closing;
        OnAbort();
        state := Closed;
      }
    }

    /** Abort: rolls back through OnAbort unless already closed. */
    method Abort()
      requires Valid()
      modifies this, con, tx
      ensures Valid()
      ensures old(state) == Closed ==> unchanged(this, con) && (tx != null ==> unchanged(tx))
      ensures tx == old(tx)
      ensures old(state) != Closed ==> state == Closed && con.disposed
      ensures old(state) != Closed && tx != null ==> tx.status == (if old(tx.status) == Active then Aborted else old(tx.status))
    {
      if AbortAction(state) == RunOnAbort {
        state := Closing;
        OnAbort();
        state := Closed;
      }
    }
  }
}

=== FILE: sender.dfy ===
/**
 * SsbConversationSender.cs: the client end of one conversation. It owns (or
 * borrows) a connection, begins or resumes a conversation, sends messages on
 * it, and ends it on close when it started the conversation implicitly.
 */
module Sender {
  import opened Wrappers
  import opened Errors
  import opened Broker
  import opened Communication
  import opened Uris
  import U = SsbUri
  import opened Instrumentation
  import opened SsbConstants
  import SsbHelper
  import CI = ConversationInfo

  /** What BEGIN DIALOG yields: a SqlException, or the new conversation handle. */
  datatype DialogOutcome = DialogFailed | DialogBegun(handle: Guid)

  /**
   * What SEND ON CONVERSATION yields. A failure carries the SQL error number and,
   * for error 8429, the error text found on the conversation (if any).
   */
  datatype SendOutcome = Sent | SendFailed(number: int, conversationError: Option<string>)

  /** A new sender owns its connection until SetConnection hands it a borrowed one. */
  const InitialOwnsConnection: bool := true

  /** The constructor's argument checks, in their order; the address must parse as a net.ssb address. */
  function CheckSenderArguments(connectionString: Option<string>, via: Option<Uri>, hasFactory: bool): (r: Result<U.SsbUri>)
    ensures connectionString.None? || connectionString.value == "" ==> r == Err(ArgumentNullError("connectionString"))
    ensures connectionString.Some? && connectionString.value != "" && via.None? ==> r == Err(ArgumentNullError("via"))
    ensures connectionString.Some? && connectionString.value != "" && via.Some? && !hasFactory ==>
              r == Err(ArgumentNullError("factory"))
    ensures r.Ok? <==> connectionString.Some? && connectionString.value != "" && via.Some? && hasFactory &&
                       U.Parse(via.value).Ok?
    ensures r.Ok? ==> r == U.Parse(via.value)
  {
    if connectionString.None? || connectionString.value == "" then Err(ArgumentNullError("connectionString"))
    else if via.None? then Err(ArgumentNullError("via"))
    else if !hasFactory then Err(ArgumentNullError("factory"))
    else U.Parse(via.value)
  }

  /** A message type the SEND can carry: not null, and free of the characters that would leave its brackets. */
  predicate Sendable(messageType: Option<string>) {
    messageType.Some? && SsbHelper.ValidateIdentifier(messageType.value).Ok?
  }

  /**
   * The body of Send's try block: the identifier check on the message type
   * (a null type fails there with a NullReferenceException), then the SEND,
   * which a connection that is not open refuses with an
   * InvalidOperationException. Every failure in it is reported as a timeout
   * once the deadline has passed and as a CommunicationException otherwise;
   * for error 8429 the conversation's own error text becomes the inner
   * exception.
   */
  function SendResult(messageType: Option<string>, connectionOpen: bool, outcome: SendOutcome, timeRemaining: bool)
    : (r: Outcome)
    ensures r.Pass? <==> Sendable(messageType) && connectionOpen && outcome.Sent?
    ensures r.Fail? ==> (r.error == TimeoutError <==> !timeRemaining)
    ensures r.Fail? && timeRemaining ==> r.error.CommunicationError?
    ensures r.Fail? && timeRemaining && Sendable(messageType) && connectionOpen &&
            outcome.SendFailed? && outcome.number == ConversationDisabledError ==>
              r.error.inner == outcome.conversationError
    ensures r.Fail? && timeRemaining &&
            !(Sendable(messageType) && connectionOpen && outcome.SendFailed? && outcome.number == ConversationDisabledError) ==>
              r.error.inner == None
  {
    if !Sendable(messageType) || !connectionOpen then Fail(BackendFailure(timeRemaining, None))
    else match outcome
      case Sent => Pass
      case SendFailed(number, text) =>
        Fail(BackendFailure(timeRemaining, if number == ConversationDisabledError then text else None))
  }

  /** The SEND a message produces: one command when the type is sendable and the connection open, none otherwise. */
  function SendCommands(handle: Guid, messageType: Option<string>, connectionOpen: bool, body: seq<byte>): (r: seq<Command>)
    ensures |r| <= 1
    ensures r != [] <==> Sendable(messageType) && connectionOpen
    ensures r != [] ==> r[0] == SendOnConversation(handle, messageType.value, body)
  {
    if Sendable(messageType) && connectionOpen then [SendOnConversation(handle, messageType.value, body)] else []
  }

  /** A message type with a delimiter in it is never sent, whatever the broker or the connection would do. */
  lemma DelimitedMessageTypeNeverSent(connectionOpen: bool, outcome: SendOutcome, timeRemaining: bool)
    ensures SendResult(Some("[DEFAULT]"), connectionOpen, outcome, timeRemaining).Fail?
    ensures SendCommands(0, Some("[DEFAULT]"), connectionOpen, []) == []
  {
    assert "[DEFAULT]"[0] == '[';
  }

  /** OnAbort as written: it disposes the connection whenever it owns one, without checking that one exists. */
  function AbortAsWritten(ownsConnection: bool, hasConnection: bool): (r: Outcome)
    ensures r.Fail? <==> ownsConnection && !hasConnection
    ensures r.Fail? ==> r.error == NullReferenceError
  {
    if ownsConnection && !hasConnection then Fail(NullReferenceError) else Pass
  }

  /** A sender that was never opened owns a connection it does not have, so aborting it dereferences null. */
  lemma AbortBeforeOpenFails()
    ensures AbortAsWritten(InitialOwnsConnection, false) == Fail(NullReferenceError)
  {
  }

  class SsbConversationSender {
    var state: CommunicationState
    var ownsConnection: bool
    var con: Connection?
    var connectionString: Option<string>
    const source: string
    const target: string
    var conversation: Option<CI.ConversationInfo>
    var endConversationOnClose: bool
    const contract: string
    const useEncryption: bool

    /** An open sender has a connection. */
    predicate Valid()
      reads this
    {
      state == Opened ==> con != null
    }

    constructor (cs: string, address: U.SsbUri, endOnClose: bool, contractName: string, encrypt: bool)
      ensures Valid()
      ensures state == Created && ownsConnection == InitialOwnsConnection && con == null
      ensures connectionString == Some(cs) && conversation == None && endConversationOnClose == endOnClose
      ensures source == address.Client() && target == address.Service()
      ensures contract == contractName && useEncryption == encrypt
    {
      state := Created;
      ownsConnection := InitialOwnsConnection;
      con := null;
      connectionString := Some(cs);
      source := address.Client();
      target := address.Service();
      conversation := None;
      endConversationOnClose := endOnClose;
      contract := contractName;
      useEncryption := encrypt;
    }

    /** The SsbConversationSender constructor with its argument checks. */
    static method Create(cs: Option<string>, via: Option<Uri>, hasFactory: bool, endOnClose: bool,
                         contractName: string, encrypt: bool)
      returns (r: Result<SsbConversationSender>)
      ensures r.Ok? <==> CheckSenderArguments(cs, via, hasFactory).Ok?
      ensures r.Err? ==> r.error == CheckSenderArguments(cs, via, hasFactory).error
      ensures r.Ok? ==> var address := CheckSenderArguments(cs, via, hasFactory).value;
                fresh(r.value) && r.value.Valid() && r.value.state == Created &&
                r.value.con == null && r.value.ownsConnection && r.value.conversation == None &&
                r.value.source == address.Client() && r.value.target == address.Service() &&
                r.value.connectionString == cs && r.value.endConversationOnClose == endOnClose
    {
      var checked := CheckSenderArguments(cs, via, hasFactory);
      if checked.Err? {
        return Err(checked.error);
      }
      var s := new SsbConversationSender(cs.value, checked.value, endOnClose, contractName, encrypt);
      r := Ok(s);
    }

    /** ConversationGroupID: requires an open sender, and dereferences the conversation without a check. */
    function ConversationGroupId(): (r: Result<Guid>)
      reads this
      ensures state != Opened ==> r == Err(NotOpenError)
      ensures state == Opened && conversation.None? ==> r == Err(NullReferenceError)
      ensures r.Ok? <==> state == Opened && conversation.Some?
      ensures r.Ok? ==> r.value == conversation.value.conversationGroupId
    {
      if state != Opened then Err(NotOpenError)
      else if conversation.None? then Err(NullReferenceError)
      else Ok(conversation.value.conversationGroupId)
    }

    /** ConversationHandle: the handle of the active conversation; none is an InvalidOperationException. */
    function ConversationHandle(): (r: Result<Guid>)
      reads this
      ensures state != Opened ==> r == Err(NotOpenError)
      ensures state == Opened && conversation.None? ==> r.Err? && r.error.InvalidOperationError?
      ensures r.Ok? <==> state == Opened && conversation.Some?
      ensures r.Ok? ==> r.value == conversation.value.conversationHandle
    {
      if state != Opened then Err(NotOpenError)
      else if conversation.None? then Err(InvalidOperationError("There is no active conversation.  Either send a message or call BeginConversation, or OpenConversation."))
      else Ok(conversation.value.conversationHandle)
    }

    /**
     * CreateResponseHost: the response endpoint listens on this conversation's
     * group, so the conversation must not be ended on close. The flag is
     * cleared before the group is read.
     */
    method CreateResponseHost() returns (r: Result<Guid>)
      modifies this
      ensures state == old(state) && con == old(con) && conversation == old(conversation)
      ensures ownsConnection == old(ownsConnection) && connectionString == old(connectionString)
      ensures old(state) != Opened ==> r == Err(NotOpenError) && endConversationOnClose == old(endConversationOnClose)
      ensures old(state) == Opened ==> !endConversationOnClose && r == ConversationGroupId()
    {
      if state != Opened {
        return Err(NotOpenError);
      }
      endConversationOnClose := false;
      r := ConversationGroupId();
    }

    /**
     * BeginNewConversation(groupId, timeout): BEGIN DIALOG from this sender's
     * client service to its target service, related to `groupId` unless that is
     * the empty Guid; then reads back the new conversation. An explicitly begun
     * conversation is not ended on close. Only a SqlException is reclassified:
     * a connection that is not open fails with its InvalidOperationException.
     */
    method BeginNewConversation(groupId: Guid, dialog: DialogOutcome, catalog: SsbHelper.Catalog, timeRemaining: bool)
      returns (r: Result<Guid>)
      requires Valid()
      modifies this, con
      ensures Valid()
      ensures state == old(state) && con == old(con) && ownsConnection == old(ownsConnection)
      ensures connectionString == old(connectionString)
      ensures con != null ==> con.isOpen == old(con.isOpen) && con.disposed == old(con.disposed)
      ensures old(state) != Opened ==>
                r == Err(NotOpenError) && endConversationOnClose == old(endConversationOnClose) &&
                conversation == old(conversation) && (con != null ==> con.log == old(con.log))
      ensures old(state) == Opened ==> !endConversationOnClose
      ensures old(state) == Opened && !con.isOpen ==>
                r == Err(InvalidOperationError(ConnectionNotOpenMessage)) && conversation == old(conversation) &&
                con.log == old(con.log)
      ensures old(state) == Opened && con.isOpen ==>
                con.log == old(con.log) +
                  [BeginDialog(source, target, contract, useEncryption, if groupId == EmptyGuid then None else Some(groupId))]
      ensures old(state) == Opened && con.isOpen && dialog.DialogFailed? ==>
                r == Err(BackendFailure(timeRemaining, None)) && conversation == old(conversation)
      ensures old(state) == Opened && con.isOpen && dialog.DialogBegun? ==>
                var info := SsbHelper.GetConversationInfo(dialog.handle, catalog);
                (info.Ok? ==> r == Ok(dialog.handle) && conversation == Some(info.value)) &&
                (info.Err? ==> r == Err(info.error) && conversation == old(conversation))
    {
      if state != Opened {
        return Err(NotOpenError);
      }
      endConversationOnClose := false;
      if !con.isOpen {
        return Err(InvalidOperationError(ConnectionNotOpenMessage));
      }
      var related := if groupId == EmptyGuid then None else Some(groupId);
      con.Issue(BeginDialog(source, target, contract, useEncryption, related));
      match dialog {
        case DialogFailed =>
          return Err(BackendFailure(timeRemaining, None));
        case DialogBegun(handle) =>
          var info := SsbHelper.GetConversationInfo(handle, catalog);
          if info.Err? {
            return Err(info.error);
          }
          conversation := Some(info.value);
          r := Ok(info.value.conversationHandle);
      }
    }

    /** OpenConversation: resumes an existing conversation by handle; on failure the current one is kept. */
    method OpenConversation(handle: Guid, catalog: SsbHelper.Catalog) returns (r: Outcome)
      modifies this
      ensures state == old(state) && con == old(con) && ownsConnection == old(ownsConnection)
      ensures endConversationOnClose == old(endConversationOnClose) && connectionString == old(connectionString)
      ensures old(state) != Opened ==> r == Fail(NotOpenError) && conversation == old(conversation)
      ensures old(state) == Opened ==>
                var info := SsbHelper.GetConversationInfo(handle, catalog);
                (r.Pass? <==> info.Ok?) &&
                (info.Ok? ==> conversation == Some(info.value)) &&
                (info.Err? ==> r == Fail(info.error) && conversation == old(conversation))
    {
      if state != Opened {
        return Fail(NotOpenError);
      }
      var info := SsbHelper.GetConversationInfo(handle, catalog);
      if info.Err? {
        return Fail(info.error);
      }
      conversation := Some(info.value);
      r := Pass;
    }

    /**
     * Send: begins a conversation first when there is none (and then ends it on
     * close), then sends the body on the conversation under the message type.
     * A failure to begin propagates as it is; a failure to send is reported as
     * SendResult says. A sent message is counted with its length.
     */
    method Send(body: seq<byte>, messageType: Option<string>, timeRemaining: bool, dialog: DialogOutcome,
                catalog: SsbHelper.Catalog, outcome: SendOutcome, stats: Statistics)
      returns (r: Outcome)
      requires Valid() && stats.Valid()
      modifies this, con, stats
      ensures Valid() && stats.Valid()
      ensures state == old(state) && con == old(con) && ownsConnection == old(ownsConnection)
      ensures connectionString == old(connectionString)
      ensures con != null ==> con.isOpen == old(con.isOpen) && con.disposed == old(con.disposed)
      ensures old(state) != Opened ==> r == Fail(NotOpenError) && unchanged(this, stats) && (con != null ==> unchanged(con))
      ensures old(state) == Opened && old(conversation).Some? ==>
                conversation == old(conversation) && endConversationOnClose == old(endConversationOnClose) &&
                con.log == old(con.log) + SendCommands(old(conversation).value.conversationHandle, messageType, con.isOpen, body) &&
                r == SendResult(messageType, con.isOpen, outcome, timeRemaining)
      ensures old(state) == Opened && old(conversation).None? && !con.isOpen ==>
                r == Fail(InvalidOperationError(ConnectionNotOpenMessage)) && conversation == None &&
                !endConversationOnClose && con.log == old(con.log)
      ensures old(state) == Opened && old(conversation).None? && con.isOpen && dialog.DialogFailed? ==>
                r == Fail(BackendFailure(timeRemaining, None)) && conversation == None && !endConversationOnClose &&
                con.log == old(con.log) + [BeginDialog(source, target, contract, useEncryption, None)]
      ensures old(state) == Opened && old(conversation).None? && con.isOpen && dialog.DialogBegun? ==>
                var info := SsbHelper.GetConversationInfo(dialog.handle, catalog);
                (info.Err? ==> r == Fail(info.error) && conversation == None && !endConversationOnClose &&
                               con.log == old(con.log) + [BeginDialog(source, target, contract, useEncryption, None)]) &&
                (info.Ok? ==> conversation == Some(info.value) && endConversationOnClose &&
                              con.log == old(con.log) + [BeginDialog(source, target, contract, useEncryption, None)] +
                                         SendCommands(dialog.handle, messageType, true, body) &&
                              r == SendResult(messageType, true, outcome, timeRemaining))
      ensures old(state) == Opened && r.Pass? ==>
                stats.bytesSent == Add32(old(stats.bytesSent), |body|) &&
                stats.messagesSent == Add32(old(stats.messagesSent), 1) &&
                stats.bytesReceived == old(stats.bytesReceived) && stats.messagesReceived == old(stats.messagesReceived)
      ensures r.Fail? ==> unchanged(stats)
    {
      if state != Opened {
        return Fail(NotOpenError);
      }
      if conversation.None? {
        var begun := BeginNewConversation(EmptyGuid, dialog, catalog, timeRemaining);
        if begun.Err? {
          return Fail(begun.error);
        }
        endConversationOnClose := true;
      }
      r := SendOnCurrent(body, messageType, timeRemaining, outcome, stats);
    }

    /** The try block of Send, once a conversation exists. */
    method SendOnCurrent(body: seq<byte>, messageType: Option<string>, timeRemaining: bool, outcome: SendOutcome, stats: Statistics)
      returns (r: Outcome)
      requires state == Opened && con != null && conversation.Some? && stats.Valid()
      modifies con, stats
      ensures stats.Valid()
      ensures con.isOpen == old(con.isOpen) && con.disposed == old(con.disposed)
      ensures con.log == old(con.log) + SendCommands(conversation.value.conversationHandle, messageType, con.isOpen, body)
      ensures r == SendResult(messageType, con.isOpen, outcome, timeRemaining)
      ensures r.Pass? ==>
                stats.bytesSent == Add32(old(stats.bytesSent), |body|) &&
                stats.messagesSent == Add32(old(stats.messagesSent), 1) &&
                stats.bytesReceived == old(stats.bytesReceived) && stats.messagesReceived == old(stats.messagesReceived)
      ensures r.Fail? ==> unchanged(stats)
    {
      if Sendable(messageType) && con.isOpen {
        con.Issue(SendOnConversation(conversation.value.conversationHandle, messageType.value, body));
      }
      r := SendResult(messageType, con.isOpen, outcome, timeRemaining);
      if r.Pass? {
        stats.MessageSent(|body|);
      }
    }

    /**
     * EndConversation(timeout): END CONVERSATION on the current conversation,
     * which is then forgotten. No state check; no conversation is a null
     * dereference, and a missing or closed connection an InvalidOperationException
     * that the catch of SqlException lets through with the conversation kept.
     */
    method EndConversation(outcome: Exec, timeRemaining: bool) returns (r: Outcome)
      modifies this, con
      ensures state == old(state) && con == old(con) && ownsConnection == old(ownsConnection)
      ensures endConversationOnClose == old(endConversationOnClose) && connectionString == old(connectionString)
      ensures con != null ==> con.isOpen == old(con.isOpen) && con.disposed == old(con.disposed)
      ensures old(conversation).None? ==>
                r == Fail(NullReferenceError) && conversation == None && (con != null ==> con.log == old(con.log))
      ensures old(conversation).Some? && con == null ==> r.Fail? && r.error.InvalidOperationError? && conversation == old(conversation)
      ensures old(conversation).Some? && con != null && !con.isOpen ==>
                r == Fail(InvalidOperationError(ConnectionNotOpenMessage)) && conversation == old(conversation) &&
                con.log == old(con.log)
      ensures old(conversation).Some? && con != null && con.isOpen ==>
                con.log == old(con.log) + [Command.EndConversation(old(conversation).value.conversationHandle)] &&
                (outcome.Done? ==> r == Pass && conversation == None) &&
                (outcome.SqlFailed? ==> r == Fail(BackendFailure(timeRemaining, None)) && conversation == old(conversation))
    {
      if conversation.None? {
        return Fail(NullReferenceError);
      }
      if con == null {
        return Fail(InvalidOperationError("ExecuteNonQuery: Connection property has not been initialized"));
      }
      if !con.isOpen {
        return Fail(InvalidOperationError(ConnectionNotOpenMessage));
      }
      con.Issue(Command.EndConversation(conversation.value.conversationHandle));
      if outcome.SqlFailed? {
        return Fail(BackendFailure(timeRemaining, None));
      }
      conversation := None;
      r := Pass;
    }

    /** EndConversationWithError(timeout, code, description): as EndConversation, with the error sent to the far end. */
    method EndConversationWithError(errorCode: int, errorDescription: string, outcome: Exec, timeRemaining: bool)
      returns (r: Outcome)
      modifies this, con
      ensures state == old(state) && con == old(con) && ownsConnection == old(ownsConnection)
      ensures endConversationOnClose == old(endConversationOnClose) && connectionString == old(connectionString)
      ensures con != null ==> con.isOpen == old(con.isOpen) && con.disposed == old(con.disposed)
      ensures old(conversation).None? ==>
                r == Fail(NullReferenceError) && conversation == None && (con != null ==> con.log == old(con.log))
      ensures old(conversation).Some? && con == null ==> r.Fail? && r.error.InvalidOperationError? && conversation == old(conversation)
      ensures old(conversation).Some? && con != null && !con.isOpen ==>
                r == Fail(InvalidOperationError(ConnectionNotOpenMessage)) && conversation == old(conversation) &&
                con.log == old(con.log)
      ensures old(conversation).Some? && con != null && con.isOpen ==>
                con.log == old(con.log) +
                  [Command.EndConversationWithError(old(conversation).value.conversationHandle, errorCode, errorDescription)] &&
                (outcome.Done? ==> r == Pass && conversation == None) &&
                (outcome.SqlFailed? ==> r == Fail(BackendFailure(timeRemaining, None)) && conversation == old(conversation))
    {
      if conversation.None? {
        return Fail(NullReferenceError);
      }
      if con == null {
        return Fail(InvalidOperationError("ExecuteNonQuery: Connection property has not been initialized"));
      }
      if !con.isOpen {
        return Fail(InvalidOperationError(ConnectionNotOpenMessage));
      }
      con.Issue(Command.EndConversationWithError(conversation.value.conversationHandle, errorCode, errorDescription));
      if outcome.SqlFailed? {
        return Fail(BackendFailure(timeRemaining, None));
      }
      conversation := None;
      r := Pass;
    }

    /** SetConversationTimer: the helper over this sender's connection, without a state check. */
    method SetConversationTimer(handle: Guid, totalSeconds: int, outcome: Exec) returns (r: Outcome)
      modifies con
      ensures con == null ==> r.Fail? && r.error.InvalidOperationError?
      ensures con != null ==> con.isOpen == old(con.isOpen) && con.disposed == old(con.disposed)
      ensures con != null && !con.isOpen ==> r == Fail(InvalidOperationError(ConnectionNotOpenMessage)) && con.log == old(con.log)
      ensures con != null && con.isOpen ==>
                con.log == old(con.log) + [BeginConversationTimer(handle, SsbHelper.TimerSeconds(totalSeconds))] &&
                (r.Pass? <==> outcome.Done?)
    {
      if con == null {
        return Fail(InvalidOperationError("ExecuteNonQuery: Connection property has not been initialized"));
      }
      r := SsbHelper.SetConversationTimer(handle, totalSeconds, con, outcome);
    }

    /** SetConnection: lends the sender a connection whose lifetime is managed elsewhere; refused while open. */
    method SetConnection(c: Connection?) returns (r: Outcome)
      requires Valid()
      modifies this
      ensures Valid()
      ensures state == old(state) && conversation == old(conversation) && endConversationOnClose == old(endConversationOnClose)
      ensures r.Fail? <==> old(state) == Opened
      ensures r.Fail? ==> r.error.InvalidOperationError? && con == old(con) &&
                          ownsConnection == old(ownsConnection) && connectionString == old(connectionString)
      ensures r.Pass? ==> con == c && !ownsConnection && connectionString == None
    {
      if state == Opened {
        return Fail(InvalidOperationError("Cannot set the connection of an open SsbConversationSender"));
      }
      connectionString := None;
      con := c;
      ownsConnection := false;
      r := Pass;
    }

    /** OnOpen: opens an owned connection from the connection string unless one was already set. */
    method OnOpen() returns (r: Outcome)
      modifies this
      ensures state == old(state) && conversation == old(conversation) && connectionString == old(connectionString)
      ensures endConversationOnClose == old(endConversationOnClose)
      ensures old(con) != null ==> r == Pass && con == old(con) && ownsConnection == old(ownsConnection)
      ensures old(con) == null && connectionString.None? ==> r.Fail? && r.error.InvalidOperationError? && con == null
      ensures old(con) == null && connectionString.Some? ==>
                r == Pass && con != null && fresh(con) && con.isOpen && con.log == [] && ownsConnection
      ensures r.Pass? <==> con != null
    {
      if con == null {
        if connectionString.None? {
          return Fail(InvalidOperationError("The ConnectionString property has not been initialized"));
        }
        con := new Connection.Open();
        ownsConnection := true;
      }
      r := Pass;
    }

    /** Open: Created to Opened through OnOpen; a failing OnOpen faults the sender. */
    method Open() returns (r: Outcome)
      requires Valid()
      modifies this
      ensures Valid()
      ensures conversation == old(conversation) && endConversationOnClose == old(endConversationOnClose)
      ensures old(state) != Created ==> r == OpenAllowed(old(state)) && state == old(state) && con == old(con)
      ensures old(state) == Created ==> (r.Pass? <==> state == Opened) && (r.Fail? ==> state == Faulted)
      ensures r.Pass? ==> state == Opened && con != null
    {
      r := OpenAllowed(state);
      if r.Fail? {
        return;
      }
      state := Opening;
      r := OnOpen();
      state := if r.Pass? then Opened else Faulted;
    }

    /** OnClose: ends the implicitly begun conversation, then disposes an owned connection. */
    method OnClose(outcome: Exec, timeRemaining: bool) returns (r: Outcome)
      requires con != null
      modifies this, con
      ensures state == old(state) && con == old(con) && ownsConnection == old(ownsConnection)
      ensures endConversationOnClose == old(endConversationOnClose)
      ensures old(endConversationOnClose && conversation.Some? && con.isOpen) ==>
                con.log == old(con.log) + [Command.EndConversation(old(conversation).value.conversationHandle)] &&
                (r.Pass? <==> outcome.Done?) &&
                (outcome.Done? ==> conversation == None)
      ensures old(endConversationOnClose && conversation.Some? && !con.isOpen) ==>
                r == Fail(InvalidOperationError(ConnectionNotOpenMessage)) && con.log == old(con.log) &&
                conversation == old(conversation)
      ensures !old(endConversationOnClose && conversation.Some?) ==>
                r == Pass && con.log == old(con.log) && conversation == old(conversation)
      ensures r.Pass? && ownsConnection ==> con.disposed && !con.isOpen
      ensures r.Fail? || !ownsConnection ==> con.disposed == old(con.disposed) && con.isOpen == old(con.isOpen)
    {
      r := Pass;
      if endConversationOnClose && conversation.Some? {
        r := EndConversation(outcome, timeRemaining);
        if r.Fail? {
          return;
        }
      }
      if ownsConnection {
        con.Dispose();
      }
    }

    /** OnAbort: disposes the connection when the sender owns one (the missing-connection case is guarded). */
    method OnAbort()
      modifies this, con
      ensures state == old(state) && con == old(con) && ownsConnection == old(ownsConnection)
      ensures conversation == old(conversation) && endConversationOnClose == old(endConversationOnClose)
      ensures con != null && ownsConnection ==> con.disposed && !con.isOpen && con.log == old(con.log)
      ensures con != null && !ownsConnection ==> unchanged(con)
    {
      if ownsConnection && con != null {
        con.Dispose();
      }
    }

    /** Close: OnClose from Opened (aborting if it fails), OnAbort from an unfinished state, nothing once closed. */
    method Close(outcome: Exec, timeRemaining: bool) returns (r: Outcome)
      requires Valid()
      modifies this, con
      ensures Valid()
      ensures con == old(con) && ownsConnection == old(ownsConnection)
      ensures old(CloseAction(state)) == NoShutdown ==> r == Pass && unchanged(this) && (con != null ==> unchanged(con))
      ensures old(CloseAction(state)) != NoShutdown ==> state == Closed
      ensures old(CloseAction(state)) == RunOnClose && old(endConversationOnClose && conversation.Some? && con.isOpen) ==>
                con.log == old(con.log) + [Command.EndConversation(old(conversation).value.conversationHandle)] &&
                (r.Pass? <==> outcome.Done?)
      ensures old(CloseAction(state)) == RunOnClose && old(endConversationOnClose && conversation.Some? && !con.isOpen) ==>
                r == Fail(InvalidOperationError(ConnectionNotOpenMessage)) && con.log == old(con.log)
      ensures old(CloseAction(state)) == RunOnClose && !old(endConversationOnClose && conversation.Some?) ==>
                r == Pass && con != null && con.log == old(con.log)
      ensures old(CloseAction(state)) == RunOnAbort ==> r == Pass && (con != null ==> con.log == old(con.log))
      ensures old(CloseAction(state)) != NoShutdown && con != null && ownsConnection ==> con.disposed
      ensures con != null && !ownsConnection ==> con.disposed == old(con.disposed) && con.isOpen == old(con.isOpen)
    {
      r := Pass;
      var action := CloseAction(state);
      if action == RunOnClose {
        state := Closing;
        r := OnClose(outcome, timeRemaining);
        if r.Fail? {
          OnAbort();
        }
        state := Closed;
      } else if action == RunOnAbort {
        state := Closing;
        OnAbort();
        state := Closed;
      }
    }

    /** Abort: OnAbort unless already closed. */
    method Abort()
      requires Valid()
      modifies this, con
      ensures Valid()
      ensures con == old(con) && ownsConnection == old(ownsConnection) && conversation == old(conversation)
      ensures old(state) == Closed ==> unchanged(this) && (con != null ==> unchanged(con))
      ensures old(state) != Closed ==> state == Closed
      ensures old(state) != Closed && con != null && ownsConnection ==> con.disposed
      ensures con != null && !ownsConnection ==> unchanged(con)
      ensures con != null ==> con.log == old(con.log)
    {
      if AbortAction(state) == RunOnAbort {
        state := Closing;
        OnAbort();
        state := Closed;
      }
    }
  }
}

=== FILE: ssb_conversation.dfy ===
/**
 * SsbConversation.cs: the context attached to every received message. It has
 * only getters, so a datatype value models it exactly: its four properties are
 * the values given at construction and cannot change afterwards.
 */
module SsbConversation {
  import opened Broker

  datatype SsbConversationContext = SsbConversationContext(
    ConversationHandle: Guid,
    ConversationGroupId: Guid,
    MessageSequenceNumber: int,
    MessageTypeName: string)
}

=== FILE: ssb_helper.dfy ===
/**
 * SsbHelper.cs: identifier validation, the address check, the conversation
 * timer clamp, and the two catalog lookups (service and conversation
 * endpoint), with the catalog given as data.
 */
module SsbHelper {
  import opened Wrappers
  import opened Errors
  import opened Broker
  import opened Uris
  import opened SsbConstants
  import CI = ConversationInfo

  /** The characters an identifier used unescaped in a command must not contain: [ ] ' " CR LF TAB. */
  const ForbiddenCharacters: string := "[]'\"\r\n\t"

  /** String.IndexOfAny: the first position of a character from `anyOf`, or -1. */
  function IndexOfAny(s: string, anyOf: string): (r: int)
    ensures r == -1 <==> forall i :: 0 <= i < |s| ==> s[i] !in anyOf
    ensures r != -1 ==> 0 <= r < |s| && s[r] in anyOf && forall i :: 0 <= i < r ==> s[i] !in anyOf
  {
    if |s| == 0 then -1
    else if s[0] in anyOf then 0
    else
      var k := IndexOfAny(s[1..], anyOf);
      if k == -1 then -1 else k + 1
  }

  /** ValidateIdentifier: the identifier itself when it has no forbidden character, an ArgumentException otherwise. */
  function ValidateIdentifier(identifier: string): (r: Result<string>)
    ensures r.Ok? <==> forall i :: 0 <= i < |identifier| ==> identifier[i] !in ForbiddenCharacters
    ensures r.Ok? ==> r.value == identifier
    ensures r.Err? ==> r.error.ArgumentError?
  {
    if IndexOfAny(identifier, ForbiddenCharacters) != -1 then
      Err(ArgumentError("Identifer contains an illegal character ([]'\"\r\n\t). "))
    else
      Ok(identifier)
  }

  /** A bracket inside a name is refused: "[My Contract]" cannot be used where "My Contract" can. */
  lemma DelimitedNameRejected()
    ensures ValidateIdentifier("[My Contract]").Err?
    ensures ValidateIdentifier("My Contract") == Ok("My Contract")
  {
    assert "[My Contract]"[0] == '[';
    assert forall i :: 0 <= i < |"My Contract"| ==> "My Contract"[i] !in ForbiddenCharacters;
  }

  /** IsValidSsbAddress: net.ssb://hostname/servicename form. */
  predicate IsValidSsbAddress(uri: Uri)
    ensures IsValidSsbAddress(uri) ==> uri.scheme == Scheme && uri.port == -1
    ensures uri.scheme == Scheme && uri.port == -1 && |uri.path| > 1 ==> IsValidSsbAddress(uri)
    ensures uri.path == "/" && uri.query == "" ==> !IsValidSsbAddress(uri)
  {
    uri.scheme == Scheme && uri.port == -1 && uri.PathAndQuery() != "" && uri.PathAndQuery() != "/"
  }

  /** A host with a service path is an address; an explicit port, a bare root path or another scheme is not (the scheme is compared as System.Uri reports it, already lower-cased). */
  lemma AddressExamples()
    ensures IsValidSsbAddress(Uri(Scheme, "host", -1, "/svc", "", true))
    ensures !IsValidSsbAddress(Uri(Scheme, "host", 4022, "/svc", "", true))
    ensures !IsValidSsbAddress(Uri(Scheme, "host", -1, "/", "", true))
    ensures !IsValidSsbAddress(Uri("http", "host", -1, "/svc", "", true))
  {
    assert "http" != Scheme by { assert "http"[0] != Scheme[0]; }
  }

  const MaxTimerSeconds: int := 2147483646

  /** The delay handed to BEGIN CONVERSATION TIMER: the requested seconds clamped to 1..2147483646. */
  function TimerSeconds(totalSeconds: int): (r: int)
    ensures 1 <= r <= MaxTimerSeconds
    ensures 1 <= totalSeconds <= MaxTimerSeconds ==> r == totalSeconds
    ensures totalSeconds > MaxTimerSeconds ==> r == MaxTimerSeconds
    ensures totalSeconds < 1 ==> r == 1
  {
    if totalSeconds > MaxTimerSeconds then MaxTimerSeconds
    else if totalSeconds < 1 then 1
    else totalSeconds
  }

  /** Clamping twice is clamping once, and the clamp keeps the order of requests. */
  lemma TimerSecondsIdempotentAndMonotone(a: int, b: int)
    ensures TimerSeconds(TimerSeconds(a)) == TimerSeconds(a)
    ensures a <= b ==> TimerSeconds(a) <= TimerSeconds(b)
  {
  }

  /**
   * SetConversationTimer: the command carries the clamped delay; a SqlException
   * propagates, and a connection that is not open (closed or disposed) refuses
   * the command with an InvalidOperationException.
   */
  method SetConversationTimer(handle: Guid, totalSeconds: int, con: Connection, outcome: Exec) returns (r: Outcome)
    modifies con
    ensures con.isOpen == old(con.isOpen) && con.disposed == old(con.disposed)
    ensures !con.isOpen ==> r == Fail(InvalidOperationError(ConnectionNotOpenMessage)) && con.log == old(con.log)
    ensures con.isOpen ==> con.log == old(con.log) + [BeginConversationTimer(handle, TimerSeconds(totalSeconds))]
    ensures r.Pass? <==> con.isOpen && outcome.Done?
    ensures con.isOpen && outcome.SqlFailed? ==> r == Fail(SqlError(outcome.number))
  {
    if !con.isOpen {
      return Fail(InvalidOperationError(ConnectionNotOpenMessage));
    }
    con.Issue(BeginConversationTimer(handle, TimerSeconds(totalSeconds)));
    r := if outcome.Done? then Pass else Fail(SqlError(outcome.number));
  }

  /** A service and the queue behind it (sys.services joined with sys.service_queues). */
  datatype ServiceInfo = ServiceInfo(serviceName: string, serviceId: int, queueName: string, queueId: int)

  /** What the service lookup query yields: a SqlException, or the matching rows. */
  datatype ServiceQuery = ServiceQueryFailed | ServiceRows(rows: seq<ServiceInfo>)

  /** GetServiceInfo: the first matching row; no row is "Service not found"; a SQL failure is reclassified by the deadline. */
  function GetServiceInfo(serviceName: string, query: ServiceQuery, timeRemaining: bool): (r: Result<ServiceInfo>)
    ensures query.ServiceRows? && query.rows != [] <==> r.Ok?
    ensures r.Ok? ==> r.value == query.rows[0]
    ensures query.ServiceRows? && query.rows == [] ==> r.Err? && r.error.CommunicationError?
    ensures query.ServiceQueryFailed? ==> r.Err? && (r.error == TimeoutError <==> !timeRemaining)
  {
    match query
    case ServiceQueryFailed => Err(BackendFailure(timeRemaining, None))
    case ServiceRows(rows) =>
      if |rows| == 0 then Err(CommunicationError(Some("Service " + serviceName + " not found")))
      else Ok(rows[0])
  }

  /** One row of sys.conversation_endpoints joined with its service and queue. */
  datatype EndpointRow = EndpointRow(
    conversationGroupId: Guid,
    conversationId: Guid,
    serviceName: string,
    targetServiceName: string,
    queueName: string,
    state: string)

  /** The conversation catalog as the lookup query sees it; `reachable` false stands for any other SqlException. */
  datatype Catalog = Catalog(endpoints: map<Guid, EndpointRow>, reachable: bool)

  /** The name output parameters are declared varchar(30): a longer name comes back cut to 30 characters. */
  const NameParameterSize: nat := 30

  function NameOutput(name: string): (r: string)
    ensures |r| <= NameParameterSize && |r| <= |name|
    ensures r == name[..|r|]
    ensures |name| <= NameParameterSize ==> r == name
  {
    if |name| <= NameParameterSize then name else name[..NameParameterSize]
  }

  /** Only conversations in these states can be resumed for sending. */
  predicate IsSendableState(state: string)
    ensures IsSendableState(state) ==> state in CI.TransmissionStates
  {
    state == "CO" || state == "SO"
  }

  /**
   * GetConversationInfo: an unknown handle makes the query raise an error, which
   * surfaces as CommunicationException; a state other than CO/SO is an
   * InvalidOperationException naming the state's description (a code outside the
   * table fails in the description lookup itself). Names come back through
   * 30-character output parameters.
   */
  function GetConversationInfo(handle: Guid, catalog: Catalog): (r: Result<CI.ConversationInfo>)
    ensures r.Ok? <==> catalog.reachable && handle in catalog.endpoints && IsSendableState(catalog.endpoints[handle].state)
    ensures r.Ok? ==> r.value.conversationHandle == handle && IsSendableState(r.value.state)
    ensures r.Ok? ==> var e := catalog.endpoints[handle];
              r.value == CI.ConversationInfo(NameOutput(e.serviceName), NameOutput(e.queueName), NameOutput(e.targetServiceName),
                                             e.conversationId, handle, e.conversationGroupId, e.state)
    ensures !catalog.reachable || handle !in catalog.endpoints ==> r == Err(CommunicationError(None))
    ensures catalog.reachable && handle in catalog.endpoints && !IsSendableState(catalog.endpoints[handle].state) ==>
              var code := catalog.endpoints[handle].state;
              r.Err? && (code in CI.TransmissionStates <==> r.error.InvalidOperationError?)
  {
    if !catalog.reachable || handle !in catalog.endpoints then
      Err(CommunicationError(None))
    else
      var e := catalog.endpoints[handle];
      if !IsSendableState(e.state) then
        match CI.GetTransmissionStateDescription(e.state)
        case Ok(description) => Err(InvalidOperationError("Cannot open conversation in state " + description))
        case Err(f) => Err(f)
      else
        Ok(CI.ConversationInfo(NameOutput(e.serviceName), NameOutput(e.queueName), NameOutput(e.targetServiceName),
                               e.conversationId, handle, e.conversationGroupId, e.state))
  }

  /** A closed conversation cannot be resumed, and the refusal names it "Closed". */
  lemma ClosedConversationRefused(handle: Guid, catalog: Catalog)
    requires catalog.reachable && handle in catalog.endpoints && catalog.endpoints[handle].state == "CD"
    ensures GetConversationInfo(handle, catalog) == Err(InvalidOperationError("Cannot open conversation in state Closed"))
  {
  }
}

=== FILE: ssb_uri.dfy ===
/**
 * SsbUri.cs: the "net.ssb:source=<client>:target=<service>" address form.
 * The constructor checks the scheme without regard to case, splits the local
 * path on '=' and ':' and keeps segments 1 and 3.
 */
module SsbUri {
  import opened Errors
  import opened Uris
  import opened SsbConstants

  predicate IsSeparator(c: char) { c == '=' || c == ':' }

  predicate SeparatorFree(s: string) { forall i :: 0 <= i < |s| ==> !IsSeparator(s[i]) }

  function SeparatorCount(s: string): nat {
    if |s| == 0 then 0 else (if IsSeparator(s[0]) then 1 else 0) + SeparatorCount(s[1..])
  }

  /** String.Split(new char[] { '=', ':' }): every segment, empty ones included. */
  function Split(s: string): (r: seq<string>)
    ensures |r| == SeparatorCount(s) + 1
    ensures forall k :: 0 <= k < |r| ==> SeparatorFree(r[k])
  {
    if |s| == 0 then [""]
    else if IsSeparator(s[0]) then [""] + Split(s[1..])
    else
      var rest := Split(s[1..]);
      [[s[0]] + rest[0]] + rest[1..]
  }

  /** ASCII case folding, as used for scheme names. */
  function ToLower(c: char): char {
    if 'A' <= c <= 'Z' then (c as int + 32) as char else c
  }

  /** string.Compare(a, b, ignoreCase: true) == 0, for the ASCII letters that can appear in a scheme. */
  predicate EqualsIgnoreCase(a: string, b: string) {
    |a| == |b| && forall i :: 0 <= i < |a| ==> ToLower(a[i]) == ToLower(b[i])
  }

  datatype SsbUri = SsbUri(uri: Uri, source: string, target: string) {

    /** The target service name: segment 3. */
    function Service(): string { target }

    /** The initiating service name: segment 1. */
    function Client(): string { source }

    function ToUri(): Uri { uri }
  }

  /** The SsbUri(Uri) constructor. */
  function Parse(u: Uri): (r: Result<SsbUri>)
    ensures r.Ok? <==> EqualsIgnoreCase(u.scheme, Scheme) && SeparatorCount(u.LocalPath()) == 3
    ensures r.Ok? ==> r.value.uri == u && SeparatorFree(r.value.Client()) && SeparatorFree(r.value.Service())
    ensures r.Err? ==> r.error.ArgumentError?
  {
    if !EqualsIgnoreCase(u.scheme, Scheme) then
      Err(ArgumentError("Invalid URI scheme"))
    else
      var segments := Split(u.LocalPath());
      if |segments| != 4 then Err(ArgumentError("Invalid URI. Must be net.ssb:source=...:target=..."))
      else Ok(SsbUri(u, segments[1], segments[3]))
  }

  /** SsbUri.Default: "net.ssb:source=*:target=*". */
  const Default: Uri := Uri(Scheme, "", -1, "source=*:target=*", "", true)

  lemma {:induction false} SplitSeparatorFree(x: string)
    requires SeparatorFree(x)
    ensures Split(x) == [x]
  {
    if |x| > 0 {
      assert SeparatorFree(x[1..]) by {
        forall i | 0 <= i < |x[1..]| ensures !IsSeparator(x[1..][i]) { assert x[1..][i] == x[i + 1]; }
      }
      SplitSeparatorFree(x[1..]);
      assert [x[0]] + x[1..] == x;
    }
  }

  lemma {:induction false} SplitAtSeparator(x: string, c: char, y: string)
    requires SeparatorFree(x) && IsSeparator(c)
    ensures Split(x + [c] + y) == [x] + Split(y)
  {
    var s := x + [c] + y;
    if |x| == 0 {
      assert s[1..] == y;
    } else {
      assert s[1..] == x[1..] + [c] + y;
      assert SeparatorFree(x[1..]) by {
        forall i | 0 <= i < |x[1..]| ensures !IsSeparator(x[1..][i]) { assert x[1..][i] == x[i + 1]; }
      }
      SplitAtSeparator(x[1..], c, y);
      assert [x[0]] + x[1..] == x;
    }
  }

  /** The address form round-trips: the client and service written into the path are the ones parsed back. */
  lemma ParseAddressForm(u: Uri, k0: string, client: string, k2: string, service: string)
    requires SeparatorFree(k0) && SeparatorFree(client) && SeparatorFree(k2) && SeparatorFree(service)
    requires EqualsIgnoreCase(u.scheme, Scheme)
    requires u.path == k0 + "=" + client + ":" + k2 + "=" + service
    ensures Parse(u) == Ok(SsbUri(u, client, service))
  {
    var tail2 := k2 + ['='] + service;
    var tail1 := client + [':'] + tail2;
    assert u.LocalPath() == k0 + ['='] + tail1;
    SplitSeparatorFree(service);
    SplitAtSeparator(k2, '=', service);
    SplitAtSeparator(client, ':', tail2);
    SplitAtSeparator(k0, '=', tail1);
    assert Split(u.LocalPath()) == [k0, client, k2, service];
  }

  /** The keywords in segments 0 and 2 are not checked: any separator-free words are accepted. */
  lemma KeywordsNotChecked(u: Uri, client: string, service: string)
    requires SeparatorFree(client) && SeparatorFree(service)
    requires EqualsIgnoreCase(u.scheme, Scheme)
    requires u.path == "from=" + client + ":to=" + service
    ensures Parse(u).Ok? && Parse(u).value.Client() == client && Parse(u).value.Service() == service
  {
    assert u.path == "from" + "=" + client + ":" + "to" + "=" + service;
    ParseAddressForm(u, "from", client, "to", service);
  }

  /** The default address names the wildcard client and service. */
  lemma DefaultParses()
    ensures Parse(Default) == Ok(SsbUri(Default, "*", "*"))
  {
    assert Default.path == "source" + "=" + "*" + ":" + "target" + "=" + "*";
    ParseAddressForm(Default, "source", "*", "target", "*");
  }

  /** The scheme test ignores case: an upper-case scheme is accepted like the lower-case one. */
  lemma SchemeIgnoresCase(u: Uri)
    requires u.scheme == "NET.SSB" && SeparatorCount(u.path) == 3
    ensures Parse(u).Ok?
  {
    assert EqualsIgnoreCase(u.scheme, Scheme);
  }

  /** A path with other than three separators is rejected, whatever the scheme. */
  lemma WrongSegmentCountRejected(u: Uri)
    requires SeparatorCount(u.path) != 3
    ensures Parse(u).Err?
  {
  }
}

=== FILE: uri.dfy ===
/**
 * System.Uri, reduced to the parts the transport reads. `path` is the path as
 * System.Uri reports it for AbsolutePath and LocalPath; for
 * "net.ssb:source=a:target=b" it is "source=a:target=b" and the port is -1.
 */
module Uris {

  datatype Uri = Uri(scheme: string, host: string, port: int, path: string, query: string, isAbsolute: bool) {

    function PathAndQuery(): string { path + query }

    function LocalPath(): string { path }

    function AbsolutePath(): string { path }
  }
}

=== FILE: wrappers.dfy ===
/** The optional value used wherever the C# code uses a nullable reference or a `Nullable<T>`. */
module Wrappers {

  datatype Option<+T> = None | Some(value: T) {

    /** The value, or `default` when absent. */
    function GetOr(default: T): T {
      match this
      case Some(v) => v
      case None => default
    }
  }
}
